=== FILE: README.md ===
# webrtc-unreliable-client: receiver, DTLS transport and extmap, modelled in Dafny

This project models three parts of the WebRTC stack of webrtc-unreliable-client and proves properties of them.

**The RTP receiver** (`rtp_receiver.dfy`, module `RtpReceiver`) is the `RTCRtpReceiver` together with its shared internal state.
- `receive` consumes a one-shot gate, then adds one track per decoding encoding.
- For each encoding it binds the primary RTP/RTCP pipelines for a nonzero SSRC. For a nonzero RTX SSRC it binds a repair pipeline and attaches it through `receive_for_rtx`.
- `start` builds the encodings from a negotiated `TrackDetails`. `track`/`tracks` expose the tracks.
- `read`/`read_simulcast` serve RTCP reads through the first track's interceptor, or through the interceptor of the track with a given RID.
- `stop` closes every present read stream and unbinds every present stream descriptor, collecting the close errors.
- The class `RtpReceiver` holds the track list, the gate and a log of the close/unbind calls `Stop` makes. Each method is proved equal to a pure specification function: `ReceiveLoop`, `AttachRepair`, `StartEncodings`, `StopEvents`/`StopErrors`, `ReadOutcome`, `ReadSimulcastOutcome`. Lemmas about those functions state what the receiver promises.

**The DTLS transport** (`dtls_transport.dfy`, module `DtlsTransport`) is the `RTCDtlsTransport`.
- It collects local fingerprints and stores state changes, invoking the registered handler for each.
- `prepare_transport` checks the ICE transport and its own state, then builds the client handshake configuration.
- `start` asks for an endpoint, runs the handshake and keeps the connection.
- The class keeps a ghost history of every stored state and of the state `state()` reported during each handler call. Its invariant says the state is the last one stored, that a connection exists only after `Connected` was stored, and that every handler ran with its state already stored. `Start` is proved equal to the pure `StartSpec`.

**The extmap attribute** (`extmap.dfy`, module `Extmap`) is the `ExtMap` value of the SDP layer (section 5 of RFC 8285).
- It has a `Display` rendering `<value>[/<direction>][ <uri>][ <extattr>]`, and `convert`/`marshal` wrappers around it.
- An independent reader `Parse` states that the rendering loses nothing: it reads back every mapping whose extension attributes follow a URI.

`errors.dfy` holds the error variants the core returns and `FlattenErrs`, a stand-in for `flatten_errs`, whose source is not part of this model. `wrappers.dfy` holds `Option`.

Collaborators are inputs of the model:
- binding the streams for an SSRC (`streams_for_ssrc`) is `bind`;
- closing a read stream is `close`;
- an interceptor read is `interceptorRead`;
- each `tokio::select!` between a ready event and the stop notification is a `Wake` value; the first wait of a read (the `received_rx` gate) can only be `Ready` once `receive` has run, because only dropping the sender `receive` takes opens it;
- the ICE transport's `new_endpoint` is an `Option<Endpoint>`;
- `DTLSConn::new` is `handshake`;
- each certificate carries the outcome of `get_fingerprints`.

## Model

| member | source | states |
|---|---|---|
| Errors.FlattenErrs | slim/src/webrtc/rtp_transceiver/rtp_receiver/mod.rs:409 | the result of `stop` is success exactly when no close error was collected; otherwise it is one error that keeps every collected error, in order |
| RtpReceiver.BoundStream | slim/src/webrtc/rtp_transceiver/rtp_receiver/mod.rs:290-311 | a pipeline bound for an SSRC carries that SSRC's descriptor and exactly the readers and interceptors the binding returned |
| RtpReceiver.PrimaryStream | slim/src/webrtc/rtp_transceiver/rtp_receiver/mod.rs:233-256 | a track's primary pipeline has a descriptor exactly when its SSRC is nonzero and binding succeeds, and is then the bound pipeline; for SSRC 0 every part is absent |
| RtpReceiver.ReceiveStep | slim/src/webrtc/rtp_transceiver/rtp_receiver/mod.rs:232-314 | a failed primary bind returns its error and adds nothing; otherwise exactly one track is added; an encoding without RTX SSRC whose binding succeeds never fails; with an RTX SSRC, a failed RTX bind returns its error after the track was added, and otherwise the repair pipeline is attached where `AttachRepair` says, its NotFound error being the step's error |
| RtpReceiver.ReceiveLoop | slim/src/webrtc/rtp_transceiver/rtp_receiver/mod.rs:232-317 | `receive` adds at most one track per encoding and one for each on success; when no encoding has an RTX SSRC and every nonzero SSRC binds, it succeeds |
| RtpReceiver.ReceiveLoopFirstError | slim/src/webrtc/rtp_transceiver/rtp_receiver/mod.rs:232-317 | a failing `receive` stops at its first failing encoding: the encodings before it succeed, and that encoding's step gives the final tracks and the returned error (a primary bind, RTX bind or repair lookup error) |
| RtpReceiver.AttachRepair | slim/src/webrtc/rtp_transceiver/rtp_receiver/mod.rs:415-446 | fails with ForRIDTrackStreamNotFound exactly when no track matches the rule "nonzero SSRC and a single track, or equal RID"; otherwise only the repair pipeline of the FIRST matching track is replaced and every other entry is unchanged |
| RtpReceiver.SingleTrackTakesRepair | slim/src/webrtc/rtp_transceiver/rtp_receiver/mod.rs:422-425 | with one track and a nonzero SSRC the repair pipeline goes to that track whatever its RID |
| RtpReceiver.ReceiveStepShape | slim/src/webrtc/rtp_transceiver/rtp_receiver/mod.rs:232-314 | one encoding keeps the existing tracks and primary pipelines, appends at most one track (exactly one on success) carrying the encoding's SSRC, RID and bound pipeline, and only installs a repair pipeline bound for its RTX SSRC |
| RtpReceiver.ReceiveLoopKeepsPrimary | slim/src/webrtc/rtp_transceiver/rtp_receiver/mod.rs:232-316 | `receive` never removes a track nor changes the track or primary pipeline of an entry already present; the list only grows |
| RtpReceiver.ReceiveLoopAppends | slim/src/webrtc/rtp_transceiver/rtp_receiver/mod.rs:232-317 | the added tracks are those of a prefix of the encodings, in order, with each encoding's SSRC and RID and a primary pipeline bound for a nonzero SSRC (empty for SSRC 0); on success there is one per encoding |
| RtpReceiver.ReceiveLoopRepairs | slim/src/webrtc/rtp_transceiver/rtp_receiver/mod.rs:274-314 | every repair pipeline after `receive` is its earlier value (empty for new tracks) or one bound for the nonzero RTX SSRC of one of the encodings |
| RtpReceiver.NoRtxNoRepair | slim/src/webrtc/rtp_transceiver/rtp_receiver/mod.rs:274-289 | with no RTX SSRC in any encoding no repair pipeline changes and new tracks have none |
| RtpReceiver.SingleEncodingGetsRepair | slim/src/webrtc/rtp_transceiver/rtp_receiver/mod.rs:288-314 | one encoding with an RTX SSRC yields exactly one track carrying both its primary and its repair pipeline, and success |
| RtpReceiver.SimulcastRtxNotFound | slim/src/webrtc/rtp_transceiver/rtp_receiver/mod.rs:302-313 | because the repair lookup uses the empty RID, two ssrc-0 simulcast encodings with RIDs and RTX SSRCs make `receive` fail with ForRIDTrackStreamNotFound after adding both tracks |
| RtpReceiver.StartEncodings | slim/src/webrtc/rtp_transceiver/rtp_receiver/mod.rs:326-341 | as many encodings as the longer of the RID and SSRC lists; position i takes the i-th RID and SSRC when present (else "" and 0), and every one shares the repair SSRC |
| RtpReceiver.StartEncodingsExample | slim/src/webrtc/rtp_transceiver/rtp_receiver/mod.rs:326-341 | SSRCs [10, 20], no RID, repair SSRC 99 give the two encodings {10, rtx 99} and {20, rtx 99} |
| RtpReceiver.StartSharedRepairGoesToFirstTrack | slim/src/webrtc/rtp_transceiver/rtp_receiver/mod.rs:288-341 | for those encodings, with every binding succeeding, `receive` succeeds, both repair attachments go to the first track (the lookup uses the empty RID) and the second track keeps an empty repair pipeline |
| RtpReceiver.BuildEncodings | slim/src/webrtc/rtp_transceiver/rtp_receiver/mod.rs:326-341 | the in-place filling loop of `start` computes exactly `StartEncodings` |
| RtpReceiver.StopCloses | slim/src/webrtc/rtp_transceiver/rtp_receiver/mod.rs:368-391 | at most four closes per track; which streams, and in which order, is stated by `StopEventsCloses` and `StopClosesExactlyReaders` |
| RtpReceiver.StopEvents | slim/src/webrtc/rtp_transceiver/rtp_receiver/mod.rs:366-406 | at most four closes and two unbinds per track; their content is stated by `StopEventsCloses` and `StopUnbindsExactlyInfos` |
| RtpReceiver.StopErrors | slim/src/webrtc/rtp_transceiver/rtp_receiver/mod.rs:365-391 | at most one error per possible close; which errors is stated by `StopErrorsAreCloseErrors` and `StopSucceedsIffAllClose` |
| RtpReceiver.StopErrorsAreCloseErrors | slim/src/webrtc/rtp_transceiver/rtp_receiver/mod.rs:365-391 | the errors `stop` collects are the close errors of the present readers in the order they are closed |
| RtpReceiver.StopErrorsFollowLog | slim/src/webrtc/rtp_transceiver/rtp_receiver/mod.rs:365-406 | the collected errors are the errors of the close calls in the logged call order |
| RtpReceiver.StopEventsCloses | slim/src/webrtc/rtp_transceiver/rtp_receiver/mod.rs:368-406 | the close calls of `stop`, in order, are track by track the RTCP, RTP, repair RTCP and repair RTP readers that are present |
| RtpReceiver.StopClosesExactlyReaders | slim/src/webrtc/rtp_transceiver/rtp_receiver/mod.rs:368-391 | a stream is closed by `stop` if and only if it is one of the four read streams of some track |
| RtpReceiver.StopUnbindsExactlyInfos | slim/src/webrtc/rtp_transceiver/rtp_receiver/mod.rs:393-405 | a descriptor is unbound from the interceptor if and only if it is the primary or repair descriptor of some track |
| RtpReceiver.StopSucceedsIffAllClose | slim/src/webrtc/rtp_transceiver/rtp_receiver/mod.rs:365-409 | the teardown result is success if and only if every present reader of every track closes without error |
| RtpReceiver.ReadOutcome | slim/src/webrtc/rtp_transceiver/rtp_receiver/mod.rs:37-68 | stop before the gate opens gives ClosedPipe; no track gives ExistingTrack; a first track without RTCP interceptor gives InterceptorNotBind; stop winning the race against the interceptor read gives ClosedPipe; otherwise the result is exactly the interceptor's read, and success happens only then |
| RtpReceiver.ReadSimulcastOutcome | slim/src/webrtc/rtp_transceiver/rtp_receiver/mod.rs:71-103 | stop before the gate opens gives ClosedPipe; no track with the RID gives ForRIDTrackStreamNotFound; success needs both waits to resolve without stop and a track with the RID and an RTCP interceptor |
| RtpReceiver.ReadSimulcastIsReadAtMatch | slim/src/webrtc/rtp_transceiver/rtp_receiver/mod.rs:85-101 | `read_simulcast` behaves as `read` on the track list starting at the first track with the RID |
| RtpReceiver.ReadSimulcastOfSingleTrack | slim/src/webrtc/rtp_transceiver/rtp_receiver/mod.rs:71-103 | with one track, reading by that track's RID is the same as a plain read |
| RtpReceiver.RtpReceiver.constructor | slim/src/webrtc/rtp_transceiver/rtp_receiver/mod.rs:156-185 | a new receiver has the kind, no track, an unconsumed gate and no recorded call |
| RtpReceiver.RtpReceiver.Track | slim/src/webrtc/rtp_transceiver/rtp_receiver/mod.rs:200-207 | a track is returned exactly when there is one track, and it is that track |
| RtpReceiver.RtpReceiver.Tracks | slim/src/webrtc/rtp_transceiver/rtp_receiver/mod.rs:211-214 | every track, in list order |
| RtpReceiver.RtpReceiver.HaveReceived | slim/src/webrtc/rtp_transceiver/rtp_receiver/mod.rs:320-323 | true exactly when `receive` has been called at least once |
| RtpReceiver.RtpReceiver.ReceiveForRtx | slim/src/webrtc/rtp_transceiver/rtp_receiver/mod.rs:415-446 | the scanning loop leaves the tracks and result exactly as `AttachRepair` says, and the tracks unchanged on failure |
| RtpReceiver.RtpReceiver.Receive | slim/src/webrtc/rtp_transceiver/rtp_receiver/mod.rs:217-318 | a second call fails with ReceiveAlreadyCalled and changes no track; the first consumes the gate and leaves tracks and result as `ReceiveLoop` (stopping at the first binding or repair error) |
| RtpReceiver.RtpReceiver.Start | slim/src/webrtc/rtp_transceiver/rtp_receiver/mod.rs:325-354 | receives the `StartEncodings` of the details, swallowing the error, so the tracks are whatever `ReceiveLoop` added before it stopped |
| RtpReceiver.RtpReceiver.CloseIfPresent | slim/src/webrtc/rtp_transceiver/rtp_receiver/mod.rs:369-373 | a present stream is closed once and its error appended; an absent one is skipped |
| RtpReceiver.RtpReceiver.UnbindIfPresent | slim/src/webrtc/rtp_transceiver/rtp_receiver/mod.rs:393-398 | a present descriptor is unbound once; an absent one is skipped |
| RtpReceiver.RtpReceiver.CloseTrack | slim/src/webrtc/rtp_transceiver/rtp_receiver/mod.rs:369-391 | closes the present readers of one track in the order RTCP, RTP, repair RTCP, repair RTP, keeping each error |
| RtpReceiver.RtpReceiver.UnbindTrack | slim/src/webrtc/rtp_transceiver/rtp_receiver/mod.rs:393-405 | unbinds the present primary then repair descriptor of one track |
| RtpReceiver.RtpReceiver.StopTrack | slim/src/webrtc/rtp_transceiver/rtp_receiver/mod.rs:368-406 | one track: its closes, then its unbinds, and the close errors appended |
| RtpReceiver.RtpReceiver.StopTracks | slim/src/webrtc/rtp_transceiver/rtp_receiver/mod.rs:366-407 | the calls made are `StopEvents` of the tracks and the errors collected are `StopErrors` |
| RtpReceiver.RtpReceiver.Stop | slim/src/webrtc/rtp_transceiver/rtp_receiver/mod.rs:357-410 | before `receive` it makes no call and succeeds; afterwards it makes exactly the calls of `StopEvents` and returns the flattened close errors |
| RtpReceiver.RtpReceiver.Read | slim/src/webrtc/rtp_transceiver/rtp_receiver/mod.rs:37-68 | the gate opens only after `receive`, so before it the only outcome is ClosedPipe; afterwards the result equals `ReadOutcome` on the current tracks |
| RtpReceiver.RtpReceiver.ReadSimulcast | slim/src/webrtc/rtp_transceiver/rtp_receiver/mod.rs:71-103 | the gate opens only after `receive`, so before it the only outcome is ClosedPipe; afterwards the scanning loop equals `ReadSimulcastOutcome` on the current tracks |
| DtlsTransport.AllFingerprints | client/src/webrtc/dtls_transport/mod.rs:97-101 | the fingerprints are collected exactly when every certificate's fingerprints are |
| DtlsTransport.LocalParameters | client/src/webrtc/dtls_transport/mod.rs:96-107 | the role is always Auto, and the parameters exist exactly when every certificate's fingerprints do |
| DtlsTransport.AllFingerprintsConcatenates | client/src/webrtc/dtls_transport/mod.rs:97-101 | when every certificate has fingerprints, the result is all of them in certificate order |
| DtlsTransport.AllFingerprintsFirstError | client/src/webrtc/dtls_transport/mod.rs:99-101 | the error is that of the first certificate whose fingerprints fail |
| DtlsTransport.AllFingerprintsPrefixError | client/src/webrtc/dtls_transport/mod.rs:99-101 | once a prefix fails, the remaining certificates do not matter |
| DtlsTransport.LocalParametersWithoutCertificates | client/src/webrtc/dtls_transport/mod.rs:96-107 | with no certificate the result is success with no fingerprint |
| DtlsTransport.EnsureIceConn | client/src/webrtc/dtls_transport/mod.rs:189-195 | fails with ICEConnectionNotStarted exactly when the ICE transport is New |
| DtlsTransport.HandshakeConfig | client/src/webrtc/dtls_transport/mod.rs:138-147 | the handshake configuration holds only the given certificate, no SRTP protection profile, requires any client certificate and skips verification |
| DtlsTransport.PrepareCheck | client/src/webrtc/dtls_transport/mod.rs:116-148 | each error (ICE not started, invalid DTLS start, no certificate) exactly under its condition in the code's order; success gives the Client role and a configuration with only the first certificate, no SRTP profile, RequireAnyClientCert and skipped verification |
| DtlsTransport.StartSpec | client/src/webrtc/dtls_transport/mod.rs:151-187 | a connection is kept exactly on success; success stores Connecting then Connected; failure stores nothing, Failed, or Connecting then Failed; Connecting is stored exactly when an endpoint exists and preparation passes; with an endpoint, a failed preparation stores nothing and returns its error; after a passing preparation, a successful handshake gives success and keeps that handshake's connection, and a failed one returns the handshake's error |
| DtlsTransport.StartWithoutEndpoint | client/src/webrtc/dtls_transport/mod.rs:152-177 | without an endpoint `start` stores only Failed and returns the endpoint error, whatever the state |
| DtlsTransport.StartIsSingleShot | client/src/webrtc/dtls_transport/mod.rs:120-124 | once the ICE transport has left New and the state is not New, a further `start` with an endpoint fails with InvalidDTLSStart and stores nothing |
| DtlsTransport.StartHandshakeFailure | client/src/webrtc/dtls_transport/mod.rs:155-177 | a failed handshake stores Connecting then Failed, keeps no connection and returns the handshake's error |
| DtlsTransport.StartHandshakeSuccess | client/src/webrtc/dtls_transport/mod.rs:155-186 | a successful handshake stores Connecting then Connected, keeps that handshake's connection and succeeds |
| DtlsTransport.HandlerCalls | client/src/webrtc/dtls_transport/mod.rs:77-80 | when a handler is registered, it is called once per stored state, in order, with that state; never otherwise |
| DtlsTransport.DtlsTransport.constructor | client/src/webrtc/dtls_transport/mod.rs:51-61 | a new transport is New, with no handler, connection or remote certificate |
| DtlsTransport.DtlsTransport.Conn | client/src/webrtc/dtls_transport/mod.rs:63-66 | a connection is returned only after Connected was stored |
| DtlsTransport.DtlsTransport.StateChange | client/src/webrtc/dtls_transport/mod.rs:75-81 | stores the state, then calls the registered handler with it: the call is recorded while `state()` already reports the new state, an invariant every handler call keeps |
| DtlsTransport.DtlsTransport.OnStateChange | client/src/webrtc/dtls_transport/mod.rs:85-88 | the new handler replaces the old one |
| DtlsTransport.DtlsTransport.State | client/src/webrtc/dtls_transport/mod.rs:91-93 | the last state stored, or New |
| DtlsTransport.DtlsTransport.GetLocalParameters | client/src/webrtc/dtls_transport/mod.rs:96-107 | the loop with early return computes `LocalParameters` |
| DtlsTransport.DtlsTransport.GetRemoteCertificate | client/src/webrtc/dtls_transport/mod.rs:111-114 | the stored remote certificate |
| DtlsTransport.DtlsTransport.PrepareTransport | client/src/webrtc/dtls_transport/mod.rs:116-148 | returns `PrepareCheck`; stores the remote parameters once the ICE and state checks pass, even if the certificate check then fails; stores Connecting only on success |
| DtlsTransport.DtlsTransport.Start | client/src/webrtc/dtls_transport/mod.rs:151-187 | result, stored states, handler calls, connection and remote parameters are exactly those of `StartSpec`, and the state/connection invariant is kept |
| DtlsTransport.DtlsTransport.StartWithEndpoint | client/src/webrtc/dtls_transport/mod.rs:155-186 | with an endpoint, `start` does exactly what `StartSpec` says for that endpoint |
| DtlsTransport.DtlsTransport.Settle | client/src/webrtc/dtls_transport/mod.rs:170-186 | a failed connection attempt stores Failed and returns its error; a successful one keeps the connection, then stores Connected and succeeds |
| Extmap.DirectionString | client/src/webrtc/crates/sdp/extmap/mod.rs:22-24 | the direction token is non-empty and holds no space or `/` |
| Extmap.DirectionFromString | client/src/webrtc/crates/sdp/extmap/mod.rs:22-24 | only tokens that `DirectionString` writes are read, and never Unspecified |
| Extmap.DirectionRoundTrip | client/src/webrtc/crates/sdp/extmap/mod.rs:22-24 | every written direction reads back |
| Extmap.NatToString | client/src/webrtc/crates/sdp/extmap/mod.rs:21 | decimal digits only, no leading zero |
| Extmap.ParseNatToString | client/src/webrtc/crates/sdp/extmap/mod.rs:21 | the decimal rendering of a natural number reads back |
| Extmap.IntToString | client/src/webrtc/crates/sdp/extmap/mod.rs:21 | `format!("{}")` of the value: non-empty, no space or `/`, a leading `-` exactly for negatives |
| Extmap.IntRoundTrip | client/src/webrtc/crates/sdp/extmap/mod.rs:21 | every integer's rendering reads back |
| Extmap.Fmt | client/src/webrtc/crates/sdp/extmap/mod.rs:19-36 | the rendering starts with the value, and is the bare value when nothing else is set |
| Extmap.Convert | client/src/webrtc/crates/sdp/extmap/mod.rs:40-45 | an attribute with key `extmap` whose value is the rendering |
| Extmap.Marshal | client/src/webrtc/crates/sdp/extmap/mod.rs:48-50 | the first seven characters are `extmap:` and the rest is the rendering |
| Extmap.MarshalIsConvert | client/src/webrtc/crates/sdp/extmap/mod.rs:40-50 | `marshal` is the key of `convert`, a colon and its value |
| Extmap.DirectionSegment | client/src/webrtc/crates/sdp/extmap/mod.rs:21-24 | a `/` follows the value exactly when a direction is set, and is followed by the direction token; otherwise a space or the end follows |
| Extmap.FmtSplit | client/src/webrtc/crates/sdp/extmap/mod.rs:19-36 | the rendering is the value/direction head, followed by a space and the URI/attributes tail when a URI is set, by a space and the attributes when only attributes are set, and by nothing otherwise |
| Extmap.HeadRoundTrip | client/src/webrtc/crates/sdp/extmap/mod.rs:21-24 | the head has no space and reads back to the value and direction |
| Extmap.TailRoundTrip | client/src/webrtc/crates/sdp/extmap/mod.rs:26-32 | the tail reads back to the URI and the extension attributes |
| Extmap.ParseFmt | client/src/webrtc/crates/sdp/extmap/mod.rs:19-36 | every mapping whose extension attributes come with a URI is recovered from its rendering |
| Extmap.FmtInjective | client/src/webrtc/crates/sdp/extmap/mod.rs:19-36 | two such mappings with the same rendering are equal |
| Extmap.AttributesWithoutUriLookLikeUri | client/src/webrtc/crates/sdp/extmap/mod.rs:26-32 | extension attributes without a URI are written where the URI goes, so that mapping renders like one whose URI is that text |

## Left out

- Concurrency: the tokio tasks, locks, the `Notify` stop signal and the `mpsc` gate channel are not modelled. Each `select!` is modelled as a `Wake` input saying which side won. `stop`'s `notify_waiters` is therefore not a state change of the model.
- The repair drain task spawned by `receive_for_rtx` (rtp_receiver/mod.rs:427-439) is not modelled. It only reads and discards packets.
- `read_rtcp` and `read_simulcast_rtcp` are left out. They are `read`/`read_simulcast` followed by RTCP unmarshalling, and the packet codec is not part of this model. The bytes an interceptor read produces are the opaque `ReadResult`.
- The byte buffer `b` and `receive_mtu` are left out. A read yields a length and attributes.
- `start` sets each track's id and stream id after a successful receive (rtp_receiver/mod.rs:348-353). This is left out: `TrackRemote` internals are not part of this model.
- The `Debug` impl, the `kind()` accessor, `set_transceiver_codecs` and the unused `transport`/`media_engine` flags are left out. So is `create_stream_info`: a descriptor is identified by its SSRC.
- `ice_transport()` is left out. The ICE transport is represented only by its state.
- The `Display` of `Direction` and of `Url` are not part of this model. Directions use the tokens of section 5 of RFC 8285. A URI is its serialised text, assumed free of spaces as an RFC 3986 URI is.
- `flatten_errs` is not part of this model. `FlattenErrs` is an assumed stand-in for it: success on no error, otherwise one error carrying every collected error in order.
- Closing a read stream, unbinding a descriptor, binding streams, fingerprinting, the handshake and interceptor reads are collaborators. They are function inputs or recorded calls.
- RtpReceiver.RtpReceiver.Stop: the code keeps no "stopped" state. A second `stop` after `receive` repeats the same closes and unbinds, so it is idempotent only as far as the collaborators' `close` is.
- RtpReceiver.ReadSimulcastOutcome: its own contract does not pin the result at the chosen track. `ReadSimulcastIsReadAtMatch` states that it is the `read` outcome there.
- Extmap.ParseFmt, Extmap.FmtInjective: do not cover a `Url` whose serialisation keeps a space (the `url` crate keeps U+0020 in an opaque path such as `urn:a b`). With such a URI, `{uri: urn:a b}` and `{uri: urn:a, ext_attr: b}` render the same text, so the rendering is not injective there.
- Binding depends on the SSRC alone (`bind: Ssrc -> Result<Binding>`), so repeated `streams_for_ssrc` calls for one SSRC yield the same pipeline. `start` makes one such call per encoding sharing `repair_ssrc`. If the transport hands out fresh readers each time, the repair pipeline first attached to track 0 is overwritten (rtp_receiver/mod.rs:425) and `stop` never closes it; the model cannot show this leak.
- Integer widths: SSRCs are `u32` and extmap values are `isize` (64-bit), as subset types. No arithmetic on them can wrap.

=== FILE: dtls_transport.dfy ===
/**
 * The DTLS transport: drives a DTLS handshake over an endpoint of the ICE
 * transport and keeps the resulting connection.  Its state moves
 * New -> Connecting -> Connected, or to Failed.
 *
 * The collaborators are inputs: the ICE transport's state is a field the
 * transport reads, `new_endpoint` is the `endpoint` argument of `Start`, the
 * handshake (`DTLSConn::new`) is the `handshake` argument, and each
 * certificate carries the outcome of computing its fingerprints.  A state
 * change handler is identified by a `Handler` value; invoking it is recorded
 * in `handlerCalls`.
 */
module DtlsTransport {
  import opened Wrappers
  import opened Errors

  type Bytes = seq<bv8>

  datatype DtlsTransportState = New | Connecting | Connected | Closed | Failed

  /** The state of the ICE transport underneath (only `IceNew` matters here). */
  datatype IceTransportState =
    | IceUnspecified | IceNew | IceChecking | IceConnected | IceCompleted
    | IceDisconnected | IceFailed | IceClosed

  datatype DtlsRole = Unspecified | Auto | Client | Server

  datatype ClientAuthType =
    | NoClientCert | RequestClientCert | RequireAnyClientCert
    | VerifyClientCertIfGiven | RequireAndVerifyClientCert

  datatype DtlsFingerprint = DtlsFingerprint(algorithm: string, value: string)

  /** A local certificate: its DER bytes and what computing its fingerprints yields. */
  datatype Certificate = Certificate(certificate: Bytes, fingerprintOutcome: Result<seq<DtlsFingerprint>>)

  datatype DtlsParameters = DtlsParameters(role: DtlsRole, fingerprints: seq<DtlsFingerprint>)

  /** The fields of the DTLS handshake configuration that the transport sets. */
  datatype Config = Config(
    certificates: seq<Bytes>,
    srtpProtectionProfiles: seq<nat>,
    clientAuth: ClientAuthType,
    insecureSkipVerify: bool)

  /** A demultiplexed endpoint handed out by the ICE transport. */
  datatype Endpoint = Endpoint(id: nat)

  /** An established DTLS connection. */
  datatype DtlsConn = DtlsConn(id: nat)

  /** A registered state change handler. */
  datatype Handler = Handler(id: nat)

  const EndpointFailed: Error := Dtls("ice_transport.new_endpoint failed")

  // ----- local parameters -----

  /** The fingerprints of `certs` in certificate order, or the first fingerprint error. */
  function AllFingerprints(certs: seq<Certificate>): (r: Result<seq<DtlsFingerprint>>)
    ensures r.Ok? <==> FingerprintsOk(certs)
  {
    if certs == [] then Ok([])
    else match AllFingerprints(certs[..|certs| - 1])
      case Err(e) => Err(e)
      case Ok(fs) =>
        match certs[|certs| - 1].fingerprintOutcome
        case Err(e) => Err(e)
        case Ok(g) => Ok(fs + g)
  }

  /** `get_local_parameters` as a value: role `Auto` with every fingerprint. */
  function LocalParameters(certs: seq<Certificate>): (r: Result<DtlsParameters>)
    ensures r.Ok? ==> r.value.role == Auto
    ensures r.Ok? <==> AllFingerprints(certs).Ok?
  {
    match AllFingerprints(certs)
    case Err(e) => Err(e)
    case Ok(fs) => Ok(DtlsParameters(Auto, fs))
  }

  predicate FingerprintsOk(certs: seq<Certificate>)
  {
    forall i :: 0 <= i < |certs| ==> certs[i].fingerprintOutcome.Ok?
  }

  /** The fingerprint lists of `certs` joined front to back. */
  function ConcatFingerprints(certs: seq<Certificate>): seq<DtlsFingerprint>
    requires FingerprintsOk(certs)
  {
    if certs == [] then [] else certs[0].fingerprintOutcome.value + ConcatFingerprints(certs[1..])
  }

  lemma {:induction false} ConcatFingerprintsSnoc(certs: seq<Certificate>)
    requires certs != [] && FingerprintsOk(certs)
    ensures ConcatFingerprints(certs)
         == ConcatFingerprints(certs[..|certs| - 1]) + certs[|certs| - 1].fingerprintOutcome.value
  {
    if |certs| > 1 {
      assert certs[1..][..|certs[1..]| - 1] == certs[..|certs| - 1][1..];
      ConcatFingerprintsSnoc(certs[1..]);
    }
  }

  /** When every certificate has fingerprints, the result is all of them, in certificate order. */
  lemma {:induction false} AllFingerprintsConcatenates(certs: seq<Certificate>)
    requires FingerprintsOk(certs)
    ensures AllFingerprints(certs) == Ok(ConcatFingerprints(certs))
  {
    if certs != [] {
      AllFingerprintsConcatenates(certs[..|certs| - 1]);
      ConcatFingerprintsSnoc(certs);
    }
  }

  /** The error of the first certificate whose fingerprints fail is the result. */
  lemma {:induction false} AllFingerprintsFirstError(certs: seq<Certificate>, i: nat)
    requires i < |certs| && certs[i].fingerprintOutcome.Err?
    requires FingerprintsOk(certs[..i])
    ensures AllFingerprints(certs) == Err(certs[i].fingerprintOutcome.error)
  {
    if i == |certs| - 1 {
      AllFingerprintsConcatenates(certs[..i]);
    } else {
      assert certs[..|certs| - 1][..i] == certs[..i];
      AllFingerprintsFirstError(certs[..|certs| - 1], i);
    }
  }

  /** Once a prefix of the certificates fails, the rest is not looked at. */
  lemma {:induction false} AllFingerprintsPrefixError(certs: seq<Certificate>, k: nat)
    requires k <= |certs| && AllFingerprints(certs[..k]).Err?
    ensures AllFingerprints(certs) == AllFingerprints(certs[..k])
  {
    if k < |certs| {
      assert certs[..|certs| - 1][..k] == certs[..k];
      AllFingerprintsPrefixError(certs[..|certs| - 1], k);
    } else {
      assert certs[..k] == certs;
    }
  }

  /** With no certificate the local parameters are still a success, with no fingerprint. */
  lemma LocalParametersWithoutCertificates()
    ensures LocalParameters([]) == Ok(DtlsParameters(Auto, []))
  {
  }

  // ----- starting the transport -----

  /** `ensure_ice_conn`: the ICE transport must have left its `New` state. */
  function EnsureIceConn(ice: IceTransportState): (r: Result<()>)
    ensures r.Ok? <==> ice != IceNew
    ensures r.Err? ==> r.error == ErrICEConnectionNotStarted
  {
    if ice == IceNew then Err(ErrICEConnectionNotStarted) else Ok(())
  }

  /** The handshake configuration built around the first certificate. */
  function HandshakeConfig(certificate: Bytes): (c: Config)
    ensures c.certificates == [certificate] && c.srtpProtectionProfiles == []
    ensures c.clientAuth == RequireAnyClientCert && c.insecureSkipVerify
  {
    Config([certificate], [], RequireAnyClientCert, true)
  }

  /** Whether `prepare_transport` reaches the point where it stores the remote parameters. */
  predicate StoresRemoteParameters(ice: IceTransportState, state: DtlsTransportState)
  {
    ice != IceNew && state == New
  }

  /** The checks and the result of `prepare_transport`, in the order the code makes them. */
  function PrepareCheck(ice: IceTransportState, state: DtlsTransportState, certs: seq<Certificate>)
    : (r: Result<(DtlsRole, Config)>)
    ensures r == Err(ErrICEConnectionNotStarted) <==> ice == IceNew
    ensures r == Err(ErrInvalidDTLSStart) <==> ice != IceNew && state != New
    ensures r == Err(ErrNonCertificate) <==> StoresRemoteParameters(ice, state) && certs == []
    ensures r.Ok? <==> StoresRemoteParameters(ice, state) && certs != []
    ensures r.Ok? ==> r.value.0 == Client
    ensures r.Ok? ==> r.value.1.certificates == [certs[0].certificate]
    ensures r.Ok? ==> r.value.1.srtpProtectionProfiles == []
    ensures r.Ok? ==> r.value.1.clientAuth == RequireAnyClientCert && r.value.1.insecureSkipVerify
  {
    if EnsureIceConn(ice).Err? then Err(EnsureIceConn(ice).error)
    else if state != New then Err(ErrInvalidDTLSStart)
    else if certs == [] then Err(ErrNonCertificate)
    else Ok((Client, HandshakeConfig(certs[0].certificate)))
  }

  /** What one call of `start` does: the states it stores, in order, and its other effects. */
  datatype StartEffect = StartEffect(
    transitions: seq<DtlsTransportState>,
    storesRemote: bool,
    conn: Option<DtlsConn>,
    result: Result<()>)

  function StartSpec(
    ice: IceTransportState, state: DtlsTransportState, certs: seq<Certificate>,
    endpoint: Option<Endpoint>, handshake: (Endpoint, Config) -> Result<DtlsConn>)
    : (eff: StartEffect)
    ensures eff.conn.Some? <==> eff.result.Ok?
    ensures eff.result.Ok? ==> eff.transitions == [Connecting, Connected]
    ensures eff.result.Err? ==> eff.transitions in {[], [Failed], [Connecting, Failed]}
    ensures Connecting in eff.transitions <==> endpoint.Some? && PrepareCheck(ice, state, certs).Ok?
    ensures eff.storesRemote <==> endpoint.Some? && StoresRemoteParameters(ice, state)
    ensures endpoint.Some? && PrepareCheck(ice, state, certs).Err?
      ==> eff.transitions == [] && eff.result == Err(PrepareCheck(ice, state, certs).error)
    ensures endpoint.Some? && PrepareCheck(ice, state, certs).Ok? ==>
      var h := handshake(endpoint.value, PrepareCheck(ice, state, certs).value.1);
      && (h.Ok? ==> eff.result == Ok(()) && eff.conn == Some(h.value))
      && (h.Err? ==> eff.result == Err(h.error))
  {
    if endpoint.None? then StartEffect([Failed], false, None, Err(EndpointFailed))
    else match PrepareCheck(ice, state, certs)
      case Err(e) => StartEffect([], StoresRemoteParameters(ice, state), None, Err(e))
      case Ok((_, config)) =>
        match handshake(endpoint.value, config)
        case Err(e) => StartEffect([Connecting, Failed], true, None, Err(e))
        case Ok(c) => StartEffect([Connecting, Connected], true, Some(c), Ok(()))
  }

  /** Without an endpoint `start` fails and moves to Failed, whatever the state was. */
  lemma StartWithoutEndpoint(
    ice: IceTransportState, state: DtlsTransportState, certs: seq<Certificate>,
    handshake: (Endpoint, Config) -> Result<DtlsConn>)
    ensures StartSpec(ice, state, certs, None, handshake) == StartEffect([Failed], false, None, Err(EndpointFailed))
  {
  }

  /** A second `start` is refused and leaves the state, the connection and the remote parameters alone. */
  lemma StartIsSingleShot(
    ice: IceTransportState, state: DtlsTransportState, certs: seq<Certificate>,
    endpoint: Endpoint, handshake: (Endpoint, Config) -> Result<DtlsConn>)
    requires ice != IceNew && state != New
    ensures StartSpec(ice, state, certs, Some(endpoint), handshake) == StartEffect([], false, None, Err(ErrInvalidDTLSStart))
  {
  }

  /** A failed handshake stores Connecting then Failed and leaves the connection unset. */
  lemma StartHandshakeFailure(
    ice: IceTransportState, certs: seq<Certificate>,
    endpoint: Endpoint, handshake: (Endpoint, Config) -> Result<DtlsConn>)
    requires ice != IceNew && certs != []
    requires handshake(endpoint, HandshakeConfig(certs[0].certificate)).Err?
    ensures StartSpec(ice, New, certs, Some(endpoint), handshake)
         == StartEffect([Connecting, Failed], true, None, Err(handshake(endpoint, HandshakeConfig(certs[0].certificate)).error))
  {
  }

  /** A successful handshake stores Connecting then Connected and keeps that handshake's connection. */
  lemma StartHandshakeSuccess(
    ice: IceTransportState, certs: seq<Certificate>,
    endpoint: Endpoint, handshake: (Endpoint, Config) -> Result<DtlsConn>)
    requires ice != IceNew && certs != []
    requires handshake(endpoint, HandshakeConfig(certs[0].certificate)).Ok?
    ensures StartSpec(ice, New, certs, Some(endpoint), handshake)
         == StartEffect([Connecting, Connected], true, Some(handshake(endpoint, HandshakeConfig(certs[0].certificate)).value), Ok(()))
  {
  }

  /** The handler calls that storing `states` makes. */
  function HandlerCalls(h: Option<Handler>, states: seq<DtlsTransportState>): (calls: seq<(Handler, DtlsTransportState)>)
    ensures |calls| == if h.None? then 0 else |states|
    ensures h.Some? ==> forall i :: 0 <= i < |calls| ==> calls[i] == (h.value, states[i])
  {
    if h.None? || states == [] then [] else [(h.value, states[0])] + HandlerCalls(h, states[1..])
  }

  class DtlsTransport {
    /** The state of the ICE transport this transport runs over. */
    var iceState: IceTransportState
    const certificates: seq<Certificate>
    var remoteParameters: DtlsParameters
    var remoteCertificate: Bytes
    var state: DtlsTransportState
    var handler: Option<Handler>
    var conn: Option<DtlsConn>
    /** Every invocation of a state change handler, in order. */
    var handlerCalls: seq<(Handler, DtlsTransportState)>
    /** Every state ever stored, in order. */
    ghost var stored: seq<DtlsTransportState>
    /** The state `state()` reported while each handler call ran, in call order. */
    ghost var seen: seq<DtlsTransportState>

    /**
     * The state is the last one stored, a connection exists only after Connected
     * was stored, and every handler ran with its state already stored.
     */
    ghost predicate Valid()
      reads this
    {
      && state == (if stored == [] then New else stored[|stored| - 1])
      && (conn.Some? ==> Connected in stored)
      && HandlersSawTheirState()
    }

    /** Each handler call ran while `state()` already reported the state it was given. */
    ghost predicate HandlersSawTheirState()
      reads this
    {
      && |seen| == |handlerCalls|
      && forall i :: 0 <= i < |seen| ==> seen[i] == handlerCalls[i].1
    }

    constructor (iceState: IceTransportState, certificates: seq<Certificate>)
      ensures Valid()
      ensures this.iceState == iceState && this.certificates == certificates
      ensures state == New && stored == [] && handler == None && conn == None && handlerCalls == [] && seen == []
      ensures remoteParameters == DtlsParameters(Unspecified, []) && remoteCertificate == []
    {
      this.iceState := iceState;
      this.certificates := certificates;
      remoteParameters := DtlsParameters(Unspecified, []);
      remoteCertificate := [];
      state := New;
      handler := None;
      conn := None;
      handlerCalls := [];
      stored := [];
      seen := [];
    }

    /** `state_change`: stores the new state, then invokes the registered handler with it. */
    method StateChange(s: DtlsTransportState)
      requires HandlersSawTheirState()
      modifies this`state, this`stored, this`handlerCalls, this`seen
      ensures HandlersSawTheirState()
      ensures state == s && stored == old(stored) + [s]
      ensures handlerCalls == old(handlerCalls) + HandlerCalls(handler, [s])
      ensures seen == old(seen) + (if handler.Some? then [s] else [])
    {
      state := s;
      stored := stored + [s];
      if handler.Some? {
        handlerCalls := handlerCalls + [(handler.value, s)];
        seen := seen + [state];
      }
    }

    /** `conn`: the established connection, which exists only once Connected was reached. */
    function Conn(): (c: Option<DtlsConn>)
      reads this
      requires Valid()
      ensures c.Some? ==> Connected in stored
      ensures c == conn
    {
      conn
    }

    /** `on_state_change`: the new handler replaces any earlier one. */
    method OnStateChange(h: Handler)
      modifies this`handler
      ensures handler == Some(h)
    {
      handler := Some(h);
    }

    /** `state`: the last state stored, or New before any. */
    function State(): (s: DtlsTransportState)
      reads this
      requires Valid()
      ensures s == if stored == [] then New else stored[|stored| - 1]
    {
      state
    }

    /** `get_local_parameters`: collects the fingerprints of every certificate. */
    method GetLocalParameters() returns (r: Result<DtlsParameters>)
      ensures r == LocalParameters(certificates)
    {
      var fingerprints: seq<DtlsFingerprint> := [];
      var i := 0;
      while i < |certificates|
        invariant 0 <= i <= |certificates|
        invariant AllFingerprints(certificates[..i]) == Ok(fingerprints)
      {
        assert certificates[..i + 1][..i] == certificates[..i];
        match certificates[i].fingerprintOutcome {
          case Err(e) =>
            AllFingerprintsPrefixError(certificates, i + 1);
            return Err(e);
          case Ok(fs) =>
            fingerprints := fingerprints + fs;
        }
        i := i + 1;
      }
      assert certificates[..i] == certificates;
      r := Ok(DtlsParameters(Auto, fingerprints));
    }

    /** `get_remote_certificate`: the stored remote certificate bytes. */
    method GetRemoteCertificate() returns (b: Bytes)
      ensures b == remoteCertificate
    {
      b := remoteCertificate;
    }

    /**
     * `prepare_transport`: checks the ICE state, then the own state, stores the
     * remote parameters, checks for a certificate, and moves to Connecting.
     */
    method PrepareTransport(remote: DtlsParameters) returns (r: Result<(DtlsRole, Config)>)
      requires Valid()
      modifies this`remoteParameters, this`state, this`stored, this`handlerCalls, this`seen
      ensures Valid()
      ensures r == PrepareCheck(old(iceState), old(state), certificates)
      ensures remoteParameters == if StoresRemoteParameters(old(iceState), old(state)) then remote else old(remoteParameters)
      ensures r.Ok? ==> stored == old(stored) + [Connecting] && handlerCalls == old(handlerCalls) + HandlerCalls(handler, [Connecting])
      ensures r.Ok? ==> seen == old(seen) + (if handler.Some? then [Connecting] else [])
      ensures r.Err? ==> stored == old(stored) && state == old(state) && handlerCalls == old(handlerCalls) && seen == old(seen)
    {
      var ok := EnsureIceConn(iceState);
      if ok.Err? {
        return Err(ok.error);
      }
      if state != New {
        return Err(ErrInvalidDTLSStart);
      }
      remoteParameters := remote;
      if certificates == [] {
        return Err(ErrNonCertificate);
      }
      var certificate := certificates[0].certificate;
      StateChange(Connecting);
      r := Ok((Client, HandshakeConfig(certificate)));
    }

    /**
     * The end of `start`: a failed connection attempt stores Failed and returns
     * its error; a connection is kept before Connected is stored.
     */
    method Settle(outcome: Result<DtlsConn>) returns (r: Result<()>)
      requires Valid()
      modifies this`state, this`stored, this`handlerCalls, this`seen, this`conn
      ensures Valid()
      ensures var s := if outcome.Ok? then Connected else Failed;
        && r == (if outcome.Ok? then Ok(()) else Err(outcome.error))
        && stored == old(stored) + [s] && state == s
        && handlerCalls == old(handlerCalls) + HandlerCalls(handler, [s])
        && seen == old(seen) + (if handler.Some? then [s] else [])
        && conn == (if outcome.Ok? then Some(outcome.value) else old(conn))
    {
      if outcome.Err? {
        StateChange(Failed);
        return Err(outcome.error);
      }
      conn := Some(outcome.value);
      StateChange(Connected);
      r := Ok(());
    }

    /**
     * `start` once the ICE transport gave an endpoint: prepares, runs the
     * handshake as the client, and settles on its outcome.
     */
    method StartWithEndpoint(remote: DtlsParameters, endpoint: Endpoint, handshake: (Endpoint, Config) -> Result<DtlsConn>)
      returns (r: Result<()>)
      requires Valid()
      modifies this`remoteParameters, this`state, this`stored, this`handlerCalls, this`seen, this`conn
      ensures Valid()
      ensures var eff := StartSpec(old(iceState), old(state), certificates, Some(endpoint), handshake);
        && r == eff.result
        && stored == old(stored) + eff.transitions
        && state == (if eff.transitions == [] then old(state) else eff.transitions[|eff.transitions| - 1])
        && handlerCalls == old(handlerCalls) + HandlerCalls(handler, eff.transitions)
        && seen == old(seen) + (if handler.Some? then eff.transitions else [])
        && conn == (if eff.conn.Some? then eff.conn else old(conn))
        && remoteParameters == (if eff.storesRemote then remote else old(remoteParameters))
    {
      ghost var eff := StartSpec(iceState, state, certificates, Some(endpoint), handshake);
      var prepared := PrepareTransport(remote);
      if prepared.Err? {
        assert eff == StartEffect([], eff.storesRemote, None, Err(prepared.error));
        return Err(prepared.error);
      }
      var outcome := handshake(endpoint, prepared.value.1);
      assert eff.transitions == [Connecting, if outcome.Ok? then Connected else Failed];
      r := Settle(outcome);
    }

    /**
     * `start`: asks the ICE transport for an endpoint; without one it settles
     * on the endpoint error.
     */
    method Start(remote: DtlsParameters, endpoint: Option<Endpoint>, handshake: (Endpoint, Config) -> Result<DtlsConn>)
      returns (r: Result<()>)
      requires Valid()
      modifies this`remoteParameters, this`state, this`stored, this`handlerCalls, this`seen, this`conn
      ensures Valid()
      ensures var eff := StartSpec(old(iceState), old(state), certificates, endpoint, handshake);
        && r == eff.result
        && stored == old(stored) + eff.transitions
        && state == (if eff.transitions == [] then old(state) else eff.transitions[|eff.transitions| - 1])
        && handlerCalls == old(handlerCalls) + HandlerCalls(handler, eff.transitions)
        && seen == old(seen) + (if handler.Some? then eff.transitions else [])
        && conn == (if eff.conn.Some? then eff.conn else old(conn))
        && remoteParameters == (if eff.storesRemote then remote else old(remoteParameters))
    {
      if endpoint.None? {
        r := Settle(Err(EndpointFailed));
      } else {
        r := StartWithEndpoint(remote, endpoint.value, handshake);
      }
    }
  }
}

=== FILE: errors.dfy ===
/**
 * The error values of the WebRTC crate that the modelled components return,
 * and the `Result` type they are returned in.
 */
module Errors {

  /** The variants of `crate::webrtc::error::Error` that the core produces. */
  datatype Error =
    | ErrRTPReceiverReceiveAlreadyCalled
    | ErrRTPReceiverForRIDTrackStreamNotFound
    | ErrExistingTrack
    | ErrInterceptorNotBind
    | ErrClosedPipe
    | ErrICEConnectionNotStarted
    | ErrInvalidDTLSStart
    | ErrNonCertificate
      /** An error of the DTLS layer, converted with `into()`. */
    | Dtls(message: string)
      /** An error surfaced by a collaborator (binding, closing, fingerprinting, reading). */
    | Foreign(message: string)
      /** Several close errors combined into one (what `flatten_errs` returns). */
    | Aggregate(errors: seq<Error>)

  datatype Result<+T> = Ok(value: T) | Err(error: Error)

  /**
   * Combines the errors collected during a teardown: no error is success,
   * anything else is one failure that keeps every collected error, in order.
   */
  function FlattenErrs(errs: seq<Error>): (r: Result<()>)
    ensures r.Ok? <==> errs == []
    ensures r.Err? ==> r.error == Aggregate(errs)
  {
    if errs == [] then Ok(()) else Err(Aggregate(errs))
  }
}

=== FILE: extmap.dfy ===
/**
 * The SDP `extmap` attribute (section 5 of RFC 8285, grammar in section 8):
 *
 *   extmap:<value>["/"<direction>] <URI> <extensionattributes>
 *
 * `Fmt` is the serialiser (`impl Display for ExtMap`), `Convert` and
 * `Marshal` wrap it.  `Parse` is an independent reader of the same text,
 * used only to state that the serialiser loses nothing.
 */
module Extmap {
  import opened Wrappers

  /** Rust's `isize` on a 64-bit target. */
  type Isize = x: int | -0x8000_0000_0000_0000 <= x < 0x8000_0000_0000_0000

  /** The text of a `Url`, assumed free of spaces as an RFC 3986 URI is. */
  type UriText = s: string | ' ' !in s

  /** The stream direction of an extension mapping. */
  datatype Direction = Unspecified | SendRecv | SendOnly | RecvOnly | Inactive

  datatype ExtMap = ExtMap(value: Isize, direction: Direction, uri: Option<UriText>, extAttr: Option<string>)

  /** An SDP session or media attribute `a=<key>[:<value>]`. */
  datatype Attribute = Attribute(key: string, value: Option<string>)

  /** The direction token written after the `/`; none of them holds a space or a `/`. */
  function DirectionString(d: Direction): (s: string)
    ensures s != [] && ' ' !in s && '/' !in s
  {
    match d
    case Unspecified => "Unspecified"
    case SendRecv => "sendrecv"
    case SendOnly => "sendonly"
    case RecvOnly => "recvonly"
    case Inactive => "inactive"
  }

  /** Reads back a direction token; `Unspecified` is never written, so never read. */
  function DirectionFromString(s: string): (r: Option<Direction>)
    ensures r.Some? ==> r.value != Unspecified && DirectionString(r.value) == s
  {
    if s == "sendrecv" then Some(SendRecv)
    else if s == "sendonly" then Some(SendOnly)
    else if s == "recvonly" then Some(RecvOnly)
    else if s == "inactive" then Some(Inactive)
    else None
  }

  lemma DirectionRoundTrip(d: Direction)
    requires d != Unspecified
    ensures DirectionFromString(DirectionString(d)) == Some(d)
  {
  }

  // ----- decimal numbers -----

  predicate IsDigit(c: char) { '0' <= c <= '9' }

  predicate AllDigits(s: string) { forall i :: 0 <= i < |s| ==> IsDigit(s[i]) }

  function DigitChar(d: int): (c: char)
    requires 0 <= d < 10
    ensures IsDigit(c)
  {
    ('0' as int + d) as char
  }

  /** The decimal form of a natural number, most significant digit first, no leading zeros. */
  function NatToString(n: nat): (s: string)
    ensures s != [] && AllDigits(s)
    ensures n > 0 ==> s[0] != '0'
  {
    if n < 10 then [DigitChar(n)] else NatToString(n / 10) + [DigitChar(n % 10)]
  }

  /** The value of a string of decimal digits. */
  function ParseNat(s: string): nat
    requires AllDigits(s)
  {
    if s == [] then 0 else ParseNat(s[..|s| - 1]) * 10 + (s[|s| - 1] as int - '0' as int)
  }

  lemma {:induction false} ParseNatToString(n: nat)
    ensures ParseNat(NatToString(n)) == n
  {
    if n >= 10 {
      var s := NatToString(n);
      assert s[..|s| - 1] == NatToString(n / 10);
      ParseNatToString(n / 10);
    }
  }

  /** `format!("{}", v)` for a signed integer. */
  function IntToString(v: int): (s: string)
    ensures s != [] && ' ' !in s && '/' !in s
    ensures v >= 0 <==> s[0] != '-'
  {
    if v < 0 then "-" + NatToString(-v) else NatToString(v)
  }

  /** Reads a signed decimal as `IntToString` writes it. */
  function ParseInt(s: string): (r: Option<int>)
  {
    if |s| > 1 && s[0] == '-' && AllDigits(s[1..]) then Some(0 - ParseNat(s[1..]))
    else if |s| > 0 && AllDigits(s) then Some(ParseNat(s))
    else None
  }

  lemma IntRoundTrip(v: int)
    ensures ParseInt(IntToString(v)) == Some(v)
  {
    var s := IntToString(v);
    if v < 0 {
      var n := NatToString(-v);
      assert s == ['-'] + n && s[1..] == n;
      ParseNatToString(-v);
      assert ParseInt(s) == Some(0 - ParseNat(n));
    } else {
      assert s == NatToString(v) && IsDigit(s[0]);
      ParseNatToString(v);
      assert ParseInt(s) == Some(ParseNat(s));
    }
  }

  // ----- the serialiser -----

  /** The rendered attribute value (the `Display` implementation). */
  function Fmt(e: ExtMap): (r: string)
    ensures |IntToString(e.value)| <= |r| && r[..|IntToString(e.value)|] == IntToString(e.value)
    ensures e.direction == Unspecified && e.uri.None? && e.extAttr.None? ==> r == IntToString(e.value)
  {
    var output := IntToString(e.value);
    var output := if e.direction != Unspecified then output + "/" + DirectionString(e.direction) else output;
    var output := if e.uri.Some? then output + " " + e.uri.value else output;
    var output := if e.extAttr.Some? then output + " " + e.extAttr.value else output;
    output
  }

  /** The attribute this mapping becomes in a session description. */
  function Convert(e: ExtMap): (a: Attribute)
    ensures a.key == "extmap" && a.value == Some(Fmt(e))
  {
    Attribute("extmap", Some(Fmt(e)))
  }

  /** The attribute line body `extmap:<rendering>`. */
  function Marshal(e: ExtMap): (s: string)
    ensures |s| == 7 + |Fmt(e)|
    ensures s[..7] == "extmap:" && s[7..] == Fmt(e)
  {
    "extmap:" + Fmt(e)
  }

  /** `Marshal` is the key of `Convert`, a colon, and the value of `Convert`. */
  lemma MarshalIsConvert(e: ExtMap)
    ensures Marshal(e)[..7] == Convert(e).key + ":"
    ensures Marshal(e)[7..] == Convert(e).value.value
  {
  }

  /**
   * The character after the value is `/` exactly when a direction is given;
   * otherwise the value is followed by a space or ends the text.
   */
  lemma DirectionSegment(e: ExtMap)
    ensures var n := |IntToString(e.value)|;
      && (e.direction != Unspecified <==> n < |Fmt(e)| && Fmt(e)[n] == '/')
      && (e.direction != Unspecified ==>
            Fmt(e)[n + 1..n + 1 + |DirectionString(e.direction)|] == DirectionString(e.direction))
      && (e.direction == Unspecified ==> n == |Fmt(e)| || Fmt(e)[n] == ' ')
  {
  }

  // ----- the reader used to state that the serialiser is faithful -----

  /** The position of the first `c` in `s`. */
  function IndexOf(s: string, c: char): (r: Option<nat>)
    ensures r.None? ==> c !in s
    ensures r.Some? ==> r.value < |s| && s[r.value] == c && c !in s[..r.value]
  {
    if s == [] then None
    else if s[0] == c then Some(0)
    else match IndexOf(s[1..], c)
      case None => None
      case Some(k) => assert s[..k + 1] == [s[0]] + s[1..][..k]; Some(k + 1)
  }

  /** Splits `s` at its first `c`: the part before, and the part after if there is a `c`. */
  function SplitAt(s: string, c: char): (r: (string, Option<string>))
    ensures c !in r.0
    ensures r.1.None? ==> r.0 == s
    ensures r.1.Some? ==> s == r.0 + [c] + r.1.value
  {
    match IndexOf(s, c)
    case None => (s, None)
    case Some(k) => assert s == s[..k] + [c] + s[k + 1..]; (s[..k], Some(s[k + 1..]))
  }

  lemma {:induction false} IndexOfJoin(a: string, c: char, b: string)
    requires c !in a
    ensures IndexOf(a + [c] + b, c) == Some(|a|)
  {
    if a != [] {
      assert (a + [c] + b)[1..] == a[1..] + [c] + b;
      IndexOfJoin(a[1..], c, b);
    }
  }

  lemma SplitAtJoin(a: string, c: char, b: string)
    requires c !in a
    ensures SplitAt(a + [c] + b, c) == (a, Some(b))
  {
    IndexOfJoin(a, c, b);
    assert (a + [c] + b)[..|a|] == a;
    assert (a + [c] + b)[|a| + 1..] == b;
  }

  lemma SplitAtNone(a: string, c: char)
    requires c !in a
    ensures SplitAt(a, c) == (a, None)
  {
  }

  /** Reads `<value>["/"<direction>]`. */
  function ParseHead(head: string): Option<(Isize, Direction)>
  {
    var (valueText, directionText) := SplitAt(head, '/');
    var value := ParseInt(valueText);
    var direction := if directionText.None? then Some(Unspecified) else DirectionFromString(directionText.value);
    if value.None? || !(-0x8000_0000_0000_0000 <= value.value < 0x8000_0000_0000_0000) || direction.None? then None
    else Some((value.value, direction.value))
  }

  /** Reads what follows the first space: the URI, then everything after the next space. */
  function ParseTail(rest: Option<string>): (Option<UriText>, Option<string>)
  {
    if rest.None? then (None, None)
    else
      var (u, x) := SplitAt(rest.value, ' ');
      (Some(u), x)
  }

  /** Reads an `extmap` value back into its fields, or `None` for text it cannot read. */
  function Parse(s: string): Option<ExtMap>
  {
    var (head, rest) := SplitAt(s, ' ');
    match ParseHead(head)
    case None => None
    case Some((value, direction)) =>
      var (uri, extAttr) := ParseTail(rest);
      Some(ExtMap(value, direction, uri, extAttr))
  }

  /** Extension attributes can only be told apart from a URI when a URI precedes them. */
  predicate Readable(e: ExtMap)
  {
    e.extAttr.Some? ==> e.uri.Some?
  }

  /** The rendering up to the first space. */
  function HeadText(e: ExtMap): string
  {
    IntToString(e.value) + (if e.direction != Unspecified then "/" + DirectionString(e.direction) else "")
  }

  /** The rendering after the first space, when there is one. */
  function TailText(e: ExtMap): string
    requires e.uri.Some?
  {
    e.uri.value + (if e.extAttr.Some? then " " + e.extAttr.value else "")
  }

  /** The rendering is the head, then a space and the tail when there is a URI or extension attributes. */
  lemma FmtSplit(e: ExtMap)
    ensures e.uri.Some? ==> Fmt(e) == HeadText(e) + [' '] + TailText(e)
    ensures e.uri.None? && e.extAttr.Some? ==> Fmt(e) == HeadText(e) + [' '] + e.extAttr.value
    ensures e.uri.None? && e.extAttr.None? ==> Fmt(e) == HeadText(e)
  {
  }

  lemma HeadRoundTrip(e: ExtMap)
    ensures ' ' !in HeadText(e)
    ensures ParseHead(HeadText(e)) == Some((e.value, e.direction))
  {
    var v := IntToString(e.value);
    IntRoundTrip(e.value);
    if e.direction != Unspecified {
      DirectionRoundTrip(e.direction);
      assert HeadText(e) == v + ['/'] + DirectionString(e.direction);
      SplitAtJoin(v, '/', DirectionString(e.direction));
    } else {
      assert HeadText(e) == v;
      SplitAtNone(v, '/');
    }
  }

  lemma TailRoundTrip(e: ExtMap)
    requires e.uri.Some?
    ensures ParseTail(Some(TailText(e))) == (e.uri, e.extAttr)
  {
    var u := e.uri.value;
    if e.extAttr.Some? {
      assert TailText(e) == u + [' '] + e.extAttr.value;
      SplitAtJoin(u, ' ', e.extAttr.value);
    } else {
      assert TailText(e) == u;
      SplitAtNone(u, ' ');
    }
  }

  /**
   * Every readable mapping is recovered from its rendering: value, direction,
   * URI and extension attributes each land in their own segment.
   */
  lemma ParseFmt(e: ExtMap)
    requires Readable(e)
    ensures Parse(Fmt(e)) == Some(e)
  {
    FmtSplit(e);
    HeadRoundTrip(e);
    if e.uri.Some? {
      SplitAtJoin(HeadText(e), ' ', TailText(e));
      TailRoundTrip(e);
    } else {
      SplitAtNone(HeadText(e), ' ');
    }
  }

  /** Hence two readable mappings with the same rendering are the same mapping. */
  lemma FmtInjective(e1: ExtMap, e2: ExtMap)
    requires Readable(e1) && Readable(e2)
    requires Fmt(e1) == Fmt(e2)
    ensures e1 == e2
  {
    ParseFmt(e1);
    ParseFmt(e2);
  }

  /**
   * Without a URI the extension attributes are written where the URI goes,
   * so such a mapping renders exactly like one whose URI is that text.
   */
  lemma AttributesWithoutUriLookLikeUri()
    ensures Fmt(ExtMap(1, Unspecified, None, Some("x"))) == Fmt(ExtMap(1, Unspecified, Some("x"), None))
  {
  }
}

=== FILE: rtp_receiver.dfy ===
/**
 * The RTP receiver: turns decoding encodings into tracks, binds their RTP and
 * RTCP read pipelines, attaches repair (RTX) pipelines, serves RTCP reads and
 * tears everything down.
 *
 * The collaborators are inputs: binding a stream for an SSRC
 * (`streams_for_ssrc`) is the `bind` argument, closing a read stream is the
 * `close` argument, an interceptor read is the `interceptorRead` argument, and
 * each `select!` between "ready" and "stopped" is a `Wake` argument.  Close and
 * unbind calls made by `Stop` are recorded in `stopLog`.
 */
module RtpReceiver {
  import opened Wrappers
  import opened Errors

  /** An RTP synchronisation source identifier (`u32`). */
  type Ssrc = x: int | 0 <= x < 0x1_0000_0000

  datatype CodecType = Unspecified | Audio | Video

  /** The stream descriptor `create_stream_info` builds for an SSRC. */
  datatype StreamInfo = StreamInfo(ssrc: Ssrc)

  /** A bound RTP or RTCP read stream. */
  datatype ReadStream = ReadStream(id: nat)

  /** A reader wrapped by the interceptor chain. */
  datatype Interceptor = Interceptor(id: nat)

  /** One pipeline of a track; every part is absent until bound. */
  datatype TrackStream = TrackStream(
    streamInfo: Option<StreamInfo>,
    rtpReadStream: Option<ReadStream>,
    rtpInterceptor: Option<Interceptor>,
    rtcpReadStream: Option<ReadStream>,
    rtcpInterceptor: Option<Interceptor>)

  const EmptyStream := TrackStream(None, None, None, None, None)

  /** The remote track a receiver exposes. */
  datatype TrackRemote = TrackRemote(kind: CodecType, ssrc: Ssrc, rid: string)

  /** A track with its primary pipeline and its repair pipeline. */
  datatype TrackStreams = TrackStreams(track: TrackRemote, stream: TrackStream, repairStream: TrackStream)

  datatype RtxParameters = RtxParameters(ssrc: Ssrc)

  datatype DecodingParameters = DecodingParameters(ssrc: Ssrc, rid: string, rtx: RtxParameters)

  const DefaultDecoding := DecodingParameters(0, "", RtxParameters(0))

  /** What binding a stream yields; each part may be missing. */
  datatype Binding = Binding(
    rtpReadStream: Option<ReadStream>,
    rtpInterceptor: Option<Interceptor>,
    rtcpReadStream: Option<ReadStream>,
    rtcpInterceptor: Option<Interceptor>)

  /** The track description negotiated in a session description. */
  datatype TrackDetails = TrackDetails(ssrcs: seq<Ssrc>, rids: seq<string>, repairSsrc: Ssrc, id: string, streamId: string)

  /** How a `select!` between a pending event and the stop signal resolved. */
  datatype Wake = Ready | Stopped

  datatype ReadResult = ReadResult(n: nat, attributes: map<string, string>)

  /** A call `Stop` makes on a collaborator. */
  datatype StopEvent = Close(stream: ReadStream) | Unbind(info: StreamInfo)

  // ----- searching the track list -----

  /** The index of the first element satisfying `p`. */
  function FirstIndex<T>(s: seq<T>, p: T -> bool): (r: Option<nat>)
    ensures r.Some? ==> r.value < |s| && p(s[r.value]) && forall k :: 0 <= k < r.value ==> !p(s[k])
    ensures r.None? ==> forall k :: 0 <= k < |s| ==> !p(s[k])
  {
    if s == [] then None
    else if p(s[0]) then Some(0)
    else match FirstIndex(s[1..], p)
      case None => None
      case Some(j) => Some(j + 1)
  }

  // ----- attaching a repair stream -----

  /** The match rule of `receive_for_rtx`: the only track for a nonzero SSRC, or a track with the RID. */
  predicate RepairTarget(count: nat, ssrc: Ssrc, rsid: string, t: TrackStreams)
  {
    (ssrc != 0 && count == 1) || t.track.rid == rsid
  }

  /** `after` is `before` with only the repair stream of entry `j` replaced by `repair`. */
  predicate AttachedAt(before: seq<TrackStreams>, after: seq<TrackStreams>, j: nat, repair: TrackStream)
  {
    && |after| == |before| && j < |before|
    && after[j] == before[j].(repairStream := repair)
    && forall k :: 0 <= k < |before| && k != j ==> after[k] == before[k]
  }

  /** `receive_for_rtx` as a function of the track list. */
  function AttachRepair(ts: seq<TrackStreams>, ssrc: Ssrc, rsid: string, repair: TrackStream)
    : (r: Result<seq<TrackStreams>>)
    ensures r.Err? <==> forall k :: 0 <= k < |ts| ==> !RepairTarget(|ts|, ssrc, rsid, ts[k])
    ensures r.Err? ==> r.error == ErrRTPReceiverForRIDTrackStreamNotFound
    ensures r.Ok? ==> exists j :: (
      && 0 <= j < |ts| && AttachedAt(ts, r.value, j, repair)
      && RepairTarget(|ts|, ssrc, rsid, ts[j])
      && forall k :: 0 <= k < j ==> !RepairTarget(|ts|, ssrc, rsid, ts[k]))
  {
    match FirstIndex(ts, t => RepairTarget(|ts|, ssrc, rsid, t))
    case None => Err(ErrRTPReceiverForRIDTrackStreamNotFound)
    case Some(j) =>
      var after := ts[j := ts[j].(repairStream := repair)];
      assert AttachedAt(ts, after, j, repair);
      Ok(after)
  }

  /** With a single track and a nonzero SSRC the RID is not consulted. */
  lemma SingleTrackTakesRepair(t: TrackStreams, ssrc: Ssrc, rsid: string, repair: TrackStream)
    requires ssrc != 0
    ensures AttachRepair([t], ssrc, rsid, repair) == Ok([t.(repairStream := repair)])
  {
    var r := AttachRepair([t], ssrc, rsid, repair);
    assert RepairTarget(1, ssrc, rsid, t);
    var j :| 0 <= j < 1 && AttachedAt([t], r.value, j, repair);
    assert r.value == [t.(repairStream := repair)];
  }

  // ----- receive -----

  function BoundStream(ssrc: Ssrc, b: Binding): (s: TrackStream)
    ensures s.streamInfo == Some(StreamInfo(ssrc)) && s != EmptyStream
    ensures s.rtpReadStream == b.rtpReadStream && s.rtcpReadStream == b.rtcpReadStream
    ensures s.rtpInterceptor == b.rtpInterceptor && s.rtcpInterceptor == b.rtcpInterceptor
  {
    TrackStream(Some(StreamInfo(ssrc)), b.rtpReadStream, b.rtpInterceptor, b.rtcpReadStream, b.rtcpInterceptor)
  }

  /** The primary pipeline an encoding's track gets: bound for a nonzero SSRC, empty otherwise. */
  function PrimaryStream(e: DecodingParameters, bind: Ssrc -> Result<Binding>): (s: TrackStream)
    ensures s.streamInfo.Some? <==> e.ssrc != 0 && bind(e.ssrc).Ok?
    ensures s.streamInfo.Some? ==> s == BoundStream(e.ssrc, bind(e.ssrc).value)
    ensures s.streamInfo.None? ==> s == EmptyStream
  {
    if e.ssrc != 0 && bind(e.ssrc).Ok? then BoundStream(e.ssrc, bind(e.ssrc).value) else EmptyStream
  }

  /** One iteration of the loop in `receive`: the new track list and whether to go on. */
  function ReceiveStep(kind: CodecType, ts: seq<TrackStreams>, e: DecodingParameters, bind: Ssrc -> Result<Binding>)
    : (res: (seq<TrackStreams>, Result<()>))
    ensures e.ssrc != 0 && bind(e.ssrc).Err? ==> res == (ts, Err(bind(e.ssrc).error))
    ensures !(e.ssrc != 0 && bind(e.ssrc).Err?) ==> |res.0| == |ts| + 1
    ensures res.1.Err? ==> (e.ssrc != 0 && bind(e.ssrc).Err?) || e.rtx.ssrc != 0
    ensures !(e.ssrc != 0 && bind(e.ssrc).Err?) && e.rtx.ssrc != 0 ==>
      var ts1 := ts + [TrackStreams(TrackRemote(kind, e.ssrc, e.rid), PrimaryStream(e, bind), EmptyStream)];
      if bind(e.rtx.ssrc).Err? then res == (ts1, Err(bind(e.rtx.ssrc).error))
      else var a := AttachRepair(ts1, e.rtx.ssrc, "", BoundStream(e.rtx.ssrc, bind(e.rtx.ssrc).value));
        res == (if a.Ok? then (a.value, Ok(())) else (ts1, Err(a.error)))
  {
    if e.ssrc != 0 && bind(e.ssrc).Err? then (ts, Err(bind(e.ssrc).error))
    else
      var ts1 := ts + [TrackStreams(TrackRemote(kind, e.ssrc, e.rid), PrimaryStream(e, bind), EmptyStream)];
      if e.rtx.ssrc == 0 then (ts1, Ok(()))
      else if bind(e.rtx.ssrc).Err? then (ts1, Err(bind(e.rtx.ssrc).error))
      else match AttachRepair(ts1, e.rtx.ssrc, "", BoundStream(e.rtx.ssrc, bind(e.rtx.ssrc).value))
        case Err(err) => (ts1, Err(err))
        case Ok(ts2) => (ts2, Ok(()))
  }

  /** The loop of `receive` over the encodings; it stops at the first error. */
  function ReceiveLoop(kind: CodecType, ts: seq<TrackStreams>, encs: seq<DecodingParameters>, bind: Ssrc -> Result<Binding>)
    : (res: (seq<TrackStreams>, Result<()>))
    ensures |ts| <= |res.0| <= |ts| + |encs|
    ensures res.1.Ok? ==> |res.0| == |ts| + |encs|
    ensures (forall k :: 0 <= k < |encs| ==> encs[k].rtx.ssrc == 0 && (encs[k].ssrc != 0 ==> bind(encs[k].ssrc).Ok?))
      ==> res.1.Ok?
    decreases |encs|
  {
    if encs == [] then (ts, Ok(()))
    else
      var (ts1, r) := ReceiveStep(kind, ts, encs[0], bind);
      if r.Err? then (ts1, r) else ReceiveLoop(kind, ts1, encs[1..], bind)
  }

  /**
   * `receive` stops at its first failing encoding: the encodings before it
   * succeed, and that encoding's step gives the final tracks and the error.
   */
  lemma {:induction false} ReceiveLoopFirstError(kind: CodecType, ts: seq<TrackStreams>, encs: seq<DecodingParameters>, bind: Ssrc -> Result<Binding>)
    requires ReceiveLoop(kind, ts, encs, bind).1.Err?
    ensures exists i :: (
      && 0 <= i < |encs| && ReceiveLoop(kind, ts, encs[..i], bind).1.Ok?
      && ReceiveStep(kind, ReceiveLoop(kind, ts, encs[..i], bind).0, encs[i], bind) == ReceiveLoop(kind, ts, encs, bind))
    decreases |encs|
  {
    assert encs[..0] == [];
    var (ts1, r) := ReceiveStep(kind, ts, encs[0], bind);
    if r.Err? {
      assert ReceiveLoop(kind, ts, encs[..0], bind) == (ts, Ok(()));
    } else {
      ReceiveLoopFirstError(kind, ts1, encs[1..], bind);
      var i :| && 0 <= i < |encs[1..]| && ReceiveLoop(kind, ts1, encs[1..][..i], bind).1.Ok?
               && ReceiveStep(kind, ReceiveLoop(kind, ts1, encs[1..][..i], bind).0, encs[1..][i], bind) == ReceiveLoop(kind, ts1, encs[1..], bind);
      var pre := encs[..i + 1];
      assert pre[0] == encs[0] && pre[1..] == encs[1..][..i];
      assert ReceiveLoop(kind, ts, pre, bind) == ReceiveLoop(kind, ts1, encs[1..][..i], bind);
      assert encs[i + 1] == encs[1..][i];
    }
  }

  /** `after` keeps the tracks and primary pipelines of `before` and may be longer. */
  predicate KeepsPrimary(before: seq<TrackStreams>, after: seq<TrackStreams>)
  {
    && |before| <= |after|
    && forall k :: 0 <= k < |before| ==> after[k].track == before[k].track && after[k].stream == before[k].stream
  }

  /** `t` is the track added for encoding `e`: its SSRC and RID, and the primary pipeline bound for it. */
  predicate TrackFor(kind: CodecType, t: TrackStreams, e: DecodingParameters, bind: Ssrc -> Result<Binding>)
  {
    t.track == TrackRemote(kind, e.ssrc, e.rid) && t.stream == PrimaryStream(e, bind)
  }

  /** The entries `after` adds to `before` are the tracks of a prefix of `encs`, in order. */
  predicate AppendsTracksFor(kind: CodecType, before: seq<TrackStreams>, after: seq<TrackStreams>,
                             encs: seq<DecodingParameters>, bind: Ssrc -> Result<Binding>)
  {
    && |before| <= |after| <= |before| + |encs|
    && forall k :: |before| <= k < |after| ==> TrackFor(kind, after[k], encs[k - |before|], bind)
  }

  /** `rs` is the repair pipeline bound for the RTX SSRC of one of `encs`. */
  ghost predicate RepairFromEncodings(rs: TrackStream, encs: seq<DecodingParameters>, bind: Ssrc -> Result<Binding>)
  {
    exists e :: e in encs && e.rtx.ssrc != 0 && bind(e.rtx.ssrc).Ok? && rs == BoundStream(e.rtx.ssrc, bind(e.rtx.ssrc).value)
  }

  /** Every repair pipeline in `after` is its earlier value (empty for new tracks) or one bound for an RTX SSRC of `encs`. */
  ghost predicate RepairsFrom(before: seq<TrackStreams>, after: seq<TrackStreams>,
                              encs: seq<DecodingParameters>, bind: Ssrc -> Result<Binding>)
  {
    forall k :: 0 <= k < |after| ==>
      after[k].repairStream == (if k < |before| then before[k].repairStream else EmptyStream)
      || RepairFromEncodings(after[k].repairStream, encs, bind)
  }

  lemma ReceiveStepShape(kind: CodecType, ts: seq<TrackStreams>, e: DecodingParameters, bind: Ssrc -> Result<Binding>)
    ensures var (ts1, r) := ReceiveStep(kind, ts, e, bind);
      && KeepsPrimary(ts, ts1)
      && AppendsTracksFor(kind, ts, ts1, [e], bind)
      && (r.Ok? ==> |ts1| == |ts| + 1)
      && RepairsFrom(ts, ts1, [e], bind)
  {
    var (ts1, r) := ReceiveStep(kind, ts, e, bind);
    if !(e.ssrc != 0 && bind(e.ssrc).Err?) {
      var t0 := ts + [TrackStreams(TrackRemote(kind, e.ssrc, e.rid), PrimaryStream(e, bind), EmptyStream)];
      if e.rtx.ssrc != 0 && bind(e.rtx.ssrc).Ok? {
        var repair := BoundStream(e.rtx.ssrc, bind(e.rtx.ssrc).value);
        var a := AttachRepair(t0, e.rtx.ssrc, "", repair);
        if a.Ok? {
          var j :| 0 <= j < |t0| && AttachedAt(t0, a.value, j, repair);
          assert RepairFromEncodings(repair, [e], bind);
        }
      }
    }
  }

  lemma AppendsCompose(kind: CodecType, ts: seq<TrackStreams>, ts1: seq<TrackStreams>, after: seq<TrackStreams>,
                       encs: seq<DecodingParameters>, bind: Ssrc -> Result<Binding>)
    requires encs != [] && |ts1| == |ts| + 1
    requires AppendsTracksFor(kind, ts, ts1, [encs[0]], bind)
    requires AppendsTracksFor(kind, ts1, after, encs[1..], bind) && KeepsPrimary(ts1, after)
    ensures AppendsTracksFor(kind, ts, after, encs, bind)
  {
    forall k | |ts| <= k < |after|
      ensures TrackFor(kind, after[k], encs[k - |ts|], bind)
    {
      if k == |ts| {
        assert TrackFor(kind, ts1[k], [encs[0]][0], bind);
      } else {
        assert encs[1..][k - |ts1|] == encs[k - |ts|];
      }
    }
  }

  /** `receive` never changes the track or primary pipeline of an entry that was already there. */
  lemma {:induction false} ReceiveLoopKeepsPrimary(kind: CodecType, ts: seq<TrackStreams>, encs: seq<DecodingParameters>, bind: Ssrc -> Result<Binding>)
    ensures KeepsPrimary(ts, ReceiveLoop(kind, ts, encs, bind).0)
    decreases |encs|
  {
    if encs != [] {
      var (ts1, r) := ReceiveStep(kind, ts, encs[0], bind);
      ReceiveStepShape(kind, ts, encs[0], bind);
      if r.Ok? {
        ReceiveLoopKeepsPrimary(kind, ts1, encs[1..], bind);
      }
    }
  }

  /**
   * `receive` appends one track per encoding it gets through, in encoding
   * order, with that encoding's SSRC and RID, and a primary pipeline bound for
   * a nonzero SSRC and empty for SSRC 0; when it succeeds it got through all.
   */
  lemma {:induction false} ReceiveLoopAppends(kind: CodecType, ts: seq<TrackStreams>, encs: seq<DecodingParameters>, bind: Ssrc -> Result<Binding>)
    ensures var (after, r) := ReceiveLoop(kind, ts, encs, bind);
      && AppendsTracksFor(kind, ts, after, encs, bind)
      && (r.Ok? ==> |after| == |ts| + |encs|)
    decreases |encs|
  {
    if encs != [] {
      var (ts1, r) := ReceiveStep(kind, ts, encs[0], bind);
      ReceiveStepShape(kind, ts, encs[0], bind);
      if r.Ok? {
        var after := ReceiveLoop(kind, ts1, encs[1..], bind).0;
        ReceiveLoopAppends(kind, ts1, encs[1..], bind);
        ReceiveLoopKeepsPrimary(kind, ts1, encs[1..], bind);
        AppendsCompose(kind, ts, ts1, after, encs, bind);
      }
    }
  }

  /** Repair pipelines only ever come from binding an encoding's nonzero RTX SSRC. */
  lemma {:induction false} ReceiveLoopRepairs(kind: CodecType, ts: seq<TrackStreams>, encs: seq<DecodingParameters>, bind: Ssrc -> Result<Binding>)
    ensures RepairsFrom(ts, ReceiveLoop(kind, ts, encs, bind).0, encs, bind)
    decreases |encs|
  {
    if encs != [] {
      var (ts1, r) := ReceiveStep(kind, ts, encs[0], bind);
      ReceiveStepShape(kind, ts, encs[0], bind);
      if r.Ok? {
        var after := ReceiveLoop(kind, ts1, encs[1..], bind).0;
        ReceiveLoopRepairs(kind, ts1, encs[1..], bind);
        ReceiveLoopKeepsPrimary(kind, ts1, encs[1..], bind);
        forall k | 0 <= k < |after|
          ensures after[k].repairStream == (if k < |ts| then ts[k].repairStream else EmptyStream)
            || RepairFromEncodings(after[k].repairStream, encs, bind)
        {
          if RepairFromEncodings(after[k].repairStream, encs[1..], bind) {
            var e :| e in encs[1..] && e.rtx.ssrc != 0 && bind(e.rtx.ssrc).Ok?
              && after[k].repairStream == BoundStream(e.rtx.ssrc, bind(e.rtx.ssrc).value);
            assert e in encs;
          } else if k < |ts1| && RepairFromEncodings(ts1[k].repairStream, [encs[0]], bind) {
            assert encs[0] in encs;
          }
        }
      } else {
        forall k | 0 <= k < |ts1| && RepairFromEncodings(ts1[k].repairStream, [encs[0]], bind)
          ensures RepairFromEncodings(ts1[k].repairStream, encs, bind)
        {
          assert encs[0] in encs;
        }
      }
    }
  }

  /** With no RTX SSRC in any encoding, every repair pipeline keeps its value and new tracks have none. */
  lemma NoRtxNoRepair(kind: CodecType, ts: seq<TrackStreams>, encs: seq<DecodingParameters>, bind: Ssrc -> Result<Binding>)
    requires forall e :: e in encs ==> e.rtx.ssrc == 0
    ensures var after := ReceiveLoop(kind, ts, encs, bind).0;
      forall k :: 0 <= k < |after| ==> after[k].repairStream == if k < |ts| then ts[k].repairStream else EmptyStream
  {
    ReceiveLoopRepairs(kind, ts, encs, bind);
  }

  /** One encoding with an RTX SSRC: its single track gets the repair pipeline. */
  lemma SingleEncodingGetsRepair(kind: CodecType, e: DecodingParameters, bind: Ssrc -> Result<Binding>)
    requires e.rtx.ssrc != 0 && bind(e.rtx.ssrc).Ok?
    requires e.ssrc != 0 ==> bind(e.ssrc).Ok?
    ensures ReceiveLoop(kind, [], [e], bind)
         == ([TrackStreams(TrackRemote(kind, e.ssrc, e.rid), PrimaryStream(e, bind), BoundStream(e.rtx.ssrc, bind(e.rtx.ssrc).value))], Ok(()))
  {
    var t := TrackStreams(TrackRemote(kind, e.ssrc, e.rid), PrimaryStream(e, bind), EmptyStream);
    SingleTrackTakesRepair(t, e.rtx.ssrc, "", BoundStream(e.rtx.ssrc, bind(e.rtx.ssrc).value));
    assert [] + [t] == [t];
  }

  /**
   * Because `receive` looks repair streams up by the empty RID, two simulcast
   * encodings with RIDs and RTX SSRCs make it fail at the second one, after
   * both tracks were added.
   */
  lemma SimulcastRtxNotFound(kind: CodecType, e0: DecodingParameters, e1: DecodingParameters, bind: Ssrc -> Result<Binding>)
    requires e0.ssrc == 0 && e1.ssrc == 0
    requires e0.rid != "" && e1.rid != ""
    requires e0.rtx.ssrc != 0 && e1.rtx.ssrc != 0
    requires bind(e0.rtx.ssrc).Ok? && bind(e1.rtx.ssrc).Ok?
    ensures var (after, r) := ReceiveLoop(kind, [], [e0, e1], bind);
      r == Err(ErrRTPReceiverForRIDTrackStreamNotFound) && |after| == 2
  {
    var (ts1, r1) := ReceiveStep(kind, [], e0, bind);
    var t0 := TrackStreams(TrackRemote(kind, e0.ssrc, e0.rid), PrimaryStream(e0, bind), EmptyStream);
    SingleTrackTakesRepair(t0, e0.rtx.ssrc, "", BoundStream(e0.rtx.ssrc, bind(e0.rtx.ssrc).value));
    assert [] + [t0] == [t0];
    assert |ts1| == 1 && ts1[0].track.rid == e0.rid && r1.Ok?;
    assert [e0, e1][1..] == [e1];
    var t1 := TrackStreams(TrackRemote(kind, e1.ssrc, e1.rid), PrimaryStream(e1, bind), EmptyStream);
    var ts2 := ts1 + [t1];
    assert forall k :: 0 <= k < |ts2| ==> !RepairTarget(|ts2|, e1.rtx.ssrc, "", ts2[k]);
  }

  // ----- start -----

  /** The encodings the `start` helper builds: SSRCs and RIDs zipped by position, one shared repair SSRC. */
  function StartEncodings(incoming: TrackDetails): (es: seq<DecodingParameters>)
    ensures |es| == if |incoming.rids| >= |incoming.ssrcs| then |incoming.rids| else |incoming.ssrcs|
    ensures forall i :: 0 <= i < |es| ==>
      && es[i].rid == (if i < |incoming.rids| then incoming.rids[i] else "")
      && es[i].ssrc == (if i < |incoming.ssrcs| then incoming.ssrcs[i] else 0)
      && es[i].rtx.ssrc == incoming.repairSsrc
  {
    var size := if |incoming.rids| >= |incoming.ssrcs| then |incoming.rids| else |incoming.ssrcs|;
    seq(size, i requires 0 <= i < size =>
      DecodingParameters(
        if i < |incoming.ssrcs| then incoming.ssrcs[i] else 0,
        if i < |incoming.rids| then incoming.rids[i] else "",
        RtxParameters(incoming.repairSsrc)))
  }

  /** Two SSRCs, no RID, repair SSRC 99: two encodings sharing the repair SSRC. */
  lemma StartEncodingsExample()
    ensures StartEncodings(TrackDetails([10, 20], [], 99, "", ""))
         == [DecodingParameters(10, "", RtxParameters(99)), DecodingParameters(20, "", RtxParameters(99))]
  {
  }

  /**
   * `start` for SSRCs [10, 20] with no RID and repair SSRC 99: since the repair
   * lookup uses the empty RID, both repair pipelines go to the first track, and
   * the second track keeps an empty repair pipeline.
   */
  lemma StartSharedRepairGoesToFirstTrack(kind: CodecType, bind: Ssrc -> Result<Binding>)
    requires bind(10).Ok? && bind(20).Ok? && bind(99).Ok?
    ensures ReceiveLoop(kind, [], StartEncodings(TrackDetails([10, 20], [], 99, "", "")), bind)
         == ([TrackStreams(TrackRemote(kind, 10, ""), BoundStream(10, bind(10).value), BoundStream(99, bind(99).value)),
              TrackStreams(TrackRemote(kind, 20, ""), BoundStream(20, bind(20).value), EmptyStream)], Ok(()))
  {
    var e0 := DecodingParameters(10, "", RtxParameters(99));
    var e1 := DecodingParameters(20, "", RtxParameters(99));
    StartEncodingsExample();
    var repair := BoundStream(99, bind(99).value);
    var t0 := TrackStreams(TrackRemote(kind, 10, ""), PrimaryStream(e0, bind), EmptyStream);
    SingleTrackTakesRepair(t0, 99, "", repair);
    assert [] + [t0] == [t0];
    var ts1 := [t0.(repairStream := repair)];
    assert ReceiveStep(kind, [], e0, bind) == (ts1, Ok(()));
    assert [e0, e1][1..] == [e1];
    var t1 := TrackStreams(TrackRemote(kind, 20, ""), PrimaryStream(e1, bind), EmptyStream);
    var ts2 := ts1 + [t1];
    assert RepairTarget(|ts2|, 99, "", ts2[0]);
    var a := AttachRepair(ts2, 99, "", repair);
    var j :| 0 <= j < |ts2| && AttachedAt(ts2, a.value, j, repair) && RepairTarget(|ts2|, 99, "", ts2[j])
      && forall k :: 0 <= k < j ==> !RepairTarget(|ts2|, 99, "", ts2[k]);
    assert j == 0;
    assert a.value == [t0.(repairStream := repair), t1];
  }

  /** The encoding-building loop of `start`: default encodings, filled in place position by position. */
  method BuildEncodings(incoming: TrackDetails) returns (encodings: seq<DecodingParameters>)
    ensures encodings == StartEncodings(incoming)
  {
    var size := |incoming.ssrcs|;
    if |incoming.rids| >= size {
      size := |incoming.rids|;
    }
    encodings := seq(size, _ => DefaultDecoding);
    for i := 0 to size
      invariant |encodings| == size
      invariant forall k :: 0 <= k < i ==> encodings[k] == StartEncodings(incoming)[k]
      invariant forall k :: i <= k < size ==> encodings[k] == DefaultDecoding
    {
      var encoding := encodings[i];
      if |incoming.rids| > i {
        encoding := encoding.(rid := incoming.rids[i]);
      }
      if |incoming.ssrcs| > i {
        encoding := encoding.(ssrc := incoming.ssrcs[i]);
      }
      encoding := encoding.(rtx := RtxParameters(incoming.repairSsrc));
      encodings := encodings[i := encoding];
    }
  }

  // ----- stop -----

  /** The read streams of a track in the order `stop` closes them: primary RTCP, primary RTP, repair RTCP, repair RTP. */
  function ReaderSlots(t: TrackStreams): seq<Option<ReadStream>>
  {
    [t.stream.rtcpReadStream, t.stream.rtpReadStream, t.repairStream.rtcpReadStream, t.repairStream.rtpReadStream]
  }

  /** The stream descriptors of a track in the order `stop` unbinds them: primary, then repair. */
  function InfoSlots(t: TrackStreams): seq<Option<StreamInfo>>
  {
    [t.stream.streamInfo, t.repairStream.streamInfo]
  }

  /** `s` is a present read stream of `t`. */
  predicate IsReaderOf(t: TrackStreams, s: ReadStream)
  {
    Some(s) in ReaderSlots(t)
  }

  /** `info` is a present stream descriptor of `t`. */
  predicate IsInfoOf(t: TrackStreams, info: StreamInfo)
  {
    Some(info) in InfoSlots(t)
  }

  function Present<T>(o: Option<T>): seq<T>
  {
    if o.Some? then [o.value] else []
  }

  /** The present values among `slots`, in order. */
  function Presents<T>(slots: seq<Option<T>>): (r: seq<T>)
    ensures |r| <= |slots|
  {
    if slots == [] then [] else Presents(slots[..|slots| - 1]) + Present(slots[|slots| - 1])
  }

  /** The read streams `stop` closes, track by track. */
  function StopCloses(ts: seq<TrackStreams>): (r: seq<ReadStream>)
    ensures |r| <= 4 * |ts|
  {
    if ts == [] then [] else StopCloses(ts[..|ts| - 1]) + Presents(ReaderSlots(ts[|ts| - 1]))
  }

  function CloseOf(s: Option<ReadStream>): seq<StopEvent>
  {
    if s.Some? then [Close(s.value)] else []
  }

  function UnbindOf(info: Option<StreamInfo>): seq<StopEvent>
  {
    if info.Some? then [Unbind(info.value)] else []
  }

  /** A close call for each present stream among `slots`, in order. */
  function CloseEvents(slots: seq<Option<ReadStream>>): (r: seq<StopEvent>)
    ensures |r| <= |slots|
  {
    if slots == [] then [] else CloseEvents(slots[..|slots| - 1]) + CloseOf(slots[|slots| - 1])
  }

  /** An unbind call for each present descriptor among `slots`, in order. */
  function UnbindEvents(slots: seq<Option<StreamInfo>>): (r: seq<StopEvent>)
    ensures |r| <= |slots|
  {
    if slots == [] then [] else UnbindEvents(slots[..|slots| - 1]) + UnbindOf(slots[|slots| - 1])
  }

  /** The calls `stop` makes for one track: its closes, then its unbinds. */
  function TrackStopEvents(t: TrackStreams): seq<StopEvent>
  {
    CloseEvents(ReaderSlots(t)) + UnbindEvents(InfoSlots(t))
  }

  /** The calls `stop` makes for a track list, track by track. */
  function StopEvents(ts: seq<TrackStreams>): (r: seq<StopEvent>)
    ensures |r| <= 6 * |ts|
  {
    if ts == [] then [] else StopEvents(ts[..|ts| - 1]) + TrackStopEvents(ts[|ts| - 1])
  }

  /** The streams of the close calls among `events`, in order. */
  function ClosedStreams(events: seq<StopEvent>): seq<ReadStream>
  {
    if events == [] then []
    else ClosedStreams(events[..|events| - 1]) + (if events[|events| - 1].Close? then [events[|events| - 1].stream] else [])
  }

  /** The errors of closing each of `streams`, in order. */
  function CloseErrors(streams: seq<ReadStream>, close: ReadStream -> Result<()>): seq<Error>
  {
    if streams == [] then []
    else (if close(streams[0]).Err? then [close(streams[0]).error] else []) + CloseErrors(streams[1..], close)
  }

  /** The error of closing `s`, if it is present and the close fails. */
  function OptionalCloseError(s: Option<ReadStream>, close: ReadStream -> Result<()>): seq<Error>
  {
    if s.Some? && close(s.value).Err? then [close(s.value).error] else []
  }

  /** The errors of closing the present streams among `slots`, in order. */
  function SlotErrors(slots: seq<Option<ReadStream>>, close: ReadStream -> Result<()>): (r: seq<Error>)
    ensures |r| <= |slots|
  {
    if slots == [] then [] else SlotErrors(slots[..|slots| - 1], close) + OptionalCloseError(slots[|slots| - 1], close)
  }

  /** The errors `stop` collects, track by track. */
  function StopErrors(ts: seq<TrackStreams>, close: ReadStream -> Result<()>): (r: seq<Error>)
    ensures |r| <= 4 * |ts|
  {
    if ts == [] then [] else StopErrors(ts[..|ts| - 1], close) + SlotErrors(ReaderSlots(ts[|ts| - 1]), close)
  }

  lemma CloseErrorsOfPresent(s: Option<ReadStream>, close: ReadStream -> Result<()>)
    ensures CloseErrors(Present(s), close) == OptionalCloseError(s, close)
  {
    if s.Some? {
      assert Present(s)[1..] == [];
    }
  }

  /** The errors of a list of slots are the errors of closing its present streams. */
  lemma {:induction false} SlotErrorsAreCloseErrors(slots: seq<Option<ReadStream>>, close: ReadStream -> Result<()>)
    ensures SlotErrors(slots, close) == CloseErrors(Presents(slots), close)
  {
    if slots != [] {
      var init := slots[..|slots| - 1];
      SlotErrorsAreCloseErrors(init, close);
      CloseErrorsAppend(Presents(init), Present(slots[|slots| - 1]), close);
      CloseErrorsOfPresent(slots[|slots| - 1], close);
    }
  }

  /** The errors `stop` collects are the errors of the streams it closes, in closing order. */
  lemma {:induction false} StopErrorsAreCloseErrors(ts: seq<TrackStreams>, close: ReadStream -> Result<()>)
    ensures StopErrors(ts, close) == CloseErrors(StopCloses(ts), close)
  {
    if ts != [] {
      var init := ts[..|ts| - 1];
      StopErrorsAreCloseErrors(init, close);
      SlotErrorsAreCloseErrors(ReaderSlots(ts[|ts| - 1]), close);
      CloseErrorsAppend(StopCloses(init), Presents(ReaderSlots(ts[|ts| - 1])), close);
    }
  }

  /** Hence they are the errors of the close calls recorded in the log, in log order. */
  lemma StopErrorsFollowLog(ts: seq<TrackStreams>, close: ReadStream -> Result<()>)
    ensures StopErrors(ts, close) == CloseErrors(ClosedStreams(StopEvents(ts)), close)
  {
    StopErrorsAreCloseErrors(ts, close);
    StopEventsCloses(ts);
  }

  lemma SlotsPrefix<T>(slots: seq<T>, j: nat)
    requires j < |slots|
    ensures slots[..j + 1][..j] == slots[..j] && slots[..j + 1][j] == slots[j]
  {
  }

  lemma {:induction false} CloseErrorsAppend(a: seq<ReadStream>, b: seq<ReadStream>, close: ReadStream -> Result<()>)
    ensures CloseErrors(a + b, close) == CloseErrors(a, close) + CloseErrors(b, close)
  {
    if a != [] {
      assert (a + b)[0] == a[0] && (a + b)[1..] == a[1..] + b;
      CloseErrorsAppend(a[1..], b, close);
    } else {
      assert a + b == b;
    }
  }

  /** No error is collected exactly when every close succeeds. */
  lemma {:induction false} CloseErrorsEmpty(streams: seq<ReadStream>, close: ReadStream -> Result<()>)
    ensures CloseErrors(streams, close) == [] <==> forall s :: s in streams ==> close(s).Ok?
  {
    if streams != [] {
      CloseErrorsEmpty(streams[1..], close);
      assert forall s :: s in streams <==> s == streams[0] || s in streams[1..];
    }
  }

  lemma {:induction false} ClosedStreamsAppend(a: seq<StopEvent>, b: seq<StopEvent>)
    ensures ClosedStreams(a + b) == ClosedStreams(a) + ClosedStreams(b)
    decreases |b|
  {
    if b == [] {
      assert a + b == a;
    } else {
      var init := b[..|b| - 1];
      assert (a + b)[..|a + b| - 1] == a + init;
      ClosedStreamsAppend(a, init);
    }
  }

  /** The close calls for a list of slots are its present streams, in order. */
  lemma {:induction false} CloseEventsCloses(slots: seq<Option<ReadStream>>)
    ensures ClosedStreams(CloseEvents(slots)) == Presents(slots)
  {
    if slots != [] {
      var init := slots[..|slots| - 1];
      CloseEventsCloses(init);
      ClosedStreamsAppend(CloseEvents(init), CloseOf(slots[|slots| - 1]));
      if slots[|slots| - 1].Some? {
        assert ClosedStreams(CloseOf(slots[|slots| - 1])) == Present(slots[|slots| - 1]) by {
          assert CloseOf(slots[|slots| - 1])[..0] == [];
        }
      }
    }
  }

  /** Unbind calls contain no close call. */
  lemma {:induction false} UnbindEventsCloseNothing(slots: seq<Option<StreamInfo>>)
    ensures ClosedStreams(UnbindEvents(slots)) == []
  {
    if slots != [] {
      var init := slots[..|slots| - 1];
      UnbindEventsCloseNothing(init);
      ClosedStreamsAppend(UnbindEvents(init), UnbindOf(slots[|slots| - 1]));
      if slots[|slots| - 1].Some? {
        assert UnbindOf(slots[|slots| - 1])[..0] == [];
      }
    }
  }

  /** The close calls in the log `stop` produces are exactly the streams it closes, in the same order. */
  lemma {:induction false} StopEventsCloses(ts: seq<TrackStreams>)
    ensures ClosedStreams(StopEvents(ts)) == StopCloses(ts)
  {
    if ts != [] {
      var init := ts[..|ts| - 1];
      var t := ts[|ts| - 1];
      StopEventsCloses(init);
      ClosedStreamsAppend(StopEvents(init), TrackStopEvents(t));
      ClosedStreamsAppend(CloseEvents(ReaderSlots(t)), UnbindEvents(InfoSlots(t)));
      CloseEventsCloses(ReaderSlots(t));
      UnbindEventsCloseNothing(InfoSlots(t));
    }
  }

  /** The present values among `slots` are exactly those in a `Some` slot. */
  lemma {:induction false} PresentsContent<T>(slots: seq<Option<T>>)
    ensures forall x :: x in Presents(slots) <==> Some(x) in slots
  {
    if slots != [] {
      var init := slots[..|slots| - 1];
      PresentsContent(init);
      assert slots == init + [slots[|slots| - 1]];
    }
  }

  /** `stop` closes exactly the present read streams of the tracks. */
  lemma {:induction false} StopClosesExactlyReaders(ts: seq<TrackStreams>, s: ReadStream)
    ensures s in StopCloses(ts) <==> exists k :: 0 <= k < |ts| && IsReaderOf(ts[k], s)
  {
    if ts != [] {
      var init := ts[..|ts| - 1];
      StopClosesExactlyReaders(init, s);
      PresentsContent(ReaderSlots(ts[|ts| - 1]));
      if exists k :: 0 <= k < |ts| && IsReaderOf(ts[k], s) {
        var k :| 0 <= k < |ts| && IsReaderOf(ts[k], s);
        if k < |ts| - 1 {
          assert IsReaderOf(init[k], s);
        }
      }
      if exists k :: 0 <= k < |init| && IsReaderOf(init[k], s) {
        var k :| 0 <= k < |init| && IsReaderOf(init[k], s);
        assert IsReaderOf(ts[k], s);
      }
    }
  }

  /** The unbind calls for a list of slots are exactly its present descriptors. */
  lemma {:induction false} UnbindEventsContent(slots: seq<Option<StreamInfo>>, info: StreamInfo)
    ensures Unbind(info) in UnbindEvents(slots) <==> Some(info) in slots
  {
    if slots != [] {
      var init := slots[..|slots| - 1];
      UnbindEventsContent(init, info);
      assert slots == init + [slots[|slots| - 1]];
    }
  }

  /** Close calls contain no unbind call. */
  lemma {:induction false} CloseEventsUnbindNothing(slots: seq<Option<ReadStream>>, info: StreamInfo)
    ensures Unbind(info) !in CloseEvents(slots)
  {
    if slots != [] {
      CloseEventsUnbindNothing(slots[..|slots| - 1], info);
    }
  }

  /** `stop` unbinds exactly the present stream descriptors of the tracks. */
  lemma {:induction false} StopUnbindsExactlyInfos(ts: seq<TrackStreams>, info: StreamInfo)
    ensures Unbind(info) in StopEvents(ts) <==> exists k :: 0 <= k < |ts| && IsInfoOf(ts[k], info)
  {
    if ts != [] {
      var init := ts[..|ts| - 1];
      var t := ts[|ts| - 1];
      StopUnbindsExactlyInfos(init, info);
      UnbindEventsContent(InfoSlots(t), info);
      CloseEventsUnbindNothing(ReaderSlots(t), info);
      if exists k :: 0 <= k < |ts| && IsInfoOf(ts[k], info) {
        var k :| 0 <= k < |ts| && IsInfoOf(ts[k], info);
        if k < |ts| - 1 {
          assert IsInfoOf(init[k], info);
        }
      }
      if exists k :: 0 <= k < |init| && IsInfoOf(init[k], info) {
        var k :| 0 <= k < |init| && IsInfoOf(init[k], info);
        assert IsInfoOf(ts[k], info);
      }
    }
  }

  /** `stop` succeeds exactly when every present read stream of every track closes without error. */
  lemma StopSucceedsIffAllClose(ts: seq<TrackStreams>, close: ReadStream -> Result<()>)
    ensures FlattenErrs(StopErrors(ts, close)).Ok?
        <==> forall k, s :: 0 <= k < |ts| && IsReaderOf(ts[k], s) ==> close(s).Ok?
  {
    StopErrorsAreCloseErrors(ts, close);
    CloseErrorsEmpty(StopCloses(ts), close);
    forall s ensures s in StopCloses(ts) <==> exists k :: 0 <= k < |ts| && IsReaderOf(ts[k], s) {
      StopClosesExactlyReaders(ts, s);
    }
  }

  // ----- read -----

  /** `read`: the first track's RTCP interceptor, once receiving has begun and unless stopped. */
  function ReadOutcome(ts: seq<TrackStreams>, gate: Wake, race: Wake, interceptorRead: Interceptor -> Result<ReadResult>)
    : (r: Result<ReadResult>)
    ensures gate == Stopped ==> r == Err(ErrClosedPipe)
    ensures gate == Ready && ts == [] ==> r == Err(ErrExistingTrack)
    ensures gate == Ready && ts != [] && ts[0].stream.rtcpInterceptor.None? ==> r == Err(ErrInterceptorNotBind)
    ensures gate == Ready && race == Stopped && ts != [] && ts[0].stream.rtcpInterceptor.Some? ==> r == Err(ErrClosedPipe)
    ensures gate == Ready && race == Ready && ts != [] && ts[0].stream.rtcpInterceptor.Some?
      ==> r == interceptorRead(ts[0].stream.rtcpInterceptor.value)
    ensures r.Ok? ==> gate.Ready? && race.Ready? && ts != [] && ts[0].stream.rtcpInterceptor.Some?
  {
    if gate == Stopped then Err(ErrClosedPipe)
    else if ts == [] then Err(ErrExistingTrack)
    else match ts[0].stream.rtcpInterceptor
      case None => Err(ErrInterceptorNotBind)
      case Some(i) => if race == Stopped then Err(ErrClosedPipe) else interceptorRead(i)
  }

  /** `read_simulcast`: like `read`, on the first track whose RID is `rid`. */
  function ReadSimulcastOutcome(ts: seq<TrackStreams>, rid: string, gate: Wake, race: Wake,
                                interceptorRead: Interceptor -> Result<ReadResult>)
    : (r: Result<ReadResult>)
    ensures gate == Stopped ==> r == Err(ErrClosedPipe)
    ensures gate == Ready && (forall k :: 0 <= k < |ts| ==> ts[k].track.rid != rid) ==> r == Err(ErrRTPReceiverForRIDTrackStreamNotFound)
    ensures r.Ok? ==> gate.Ready? && race.Ready? && exists k :: 0 <= k < |ts| && ts[k].track.rid == rid && ts[k].stream.rtcpInterceptor.Some?
  {
    if gate == Stopped then Err(ErrClosedPipe)
    else match FirstIndex(ts, (t: TrackStreams) => t.track.rid == rid)
      case None => Err(ErrRTPReceiverForRIDTrackStreamNotFound)
      case Some(j) =>
        match ts[j].stream.rtcpInterceptor
        case None => Err(ErrInterceptorNotBind)
        case Some(i) => if race == Stopped then Err(ErrClosedPipe) else interceptorRead(i)
  }

  /** `read_simulcast` is `read` on the track list starting at the first track with the RID. */
  lemma ReadSimulcastIsReadAtMatch(ts: seq<TrackStreams>, rid: string, j: nat, gate: Wake, race: Wake,
                                   interceptorRead: Interceptor -> Result<ReadResult>)
    requires j < |ts| && ts[j].track.rid == rid
    requires forall k :: 0 <= k < j ==> ts[k].track.rid != rid
    ensures ReadSimulcastOutcome(ts, rid, gate, race, interceptorRead) == ReadOutcome(ts[j..], gate, race, interceptorRead)
  {
    var f := FirstIndex(ts, (t: TrackStreams) => t.track.rid == rid);
    assert f == Some(j);
  }

  /** Hence with a single track carrying the RID, both reads agree. */
  lemma ReadSimulcastOfSingleTrack(t: TrackStreams, gate: Wake, race: Wake, interceptorRead: Interceptor -> Result<ReadResult>)
    ensures ReadSimulcastOutcome([t], t.track.rid, gate, race, interceptorRead) == ReadOutcome([t], gate, race, interceptorRead)
  {
    ReadSimulcastIsReadAtMatch([t], t.track.rid, 0, gate, race, interceptorRead);
  }

  // ----- the receiver -----

  class RtpReceiver {
    const kind: CodecType
    var tracks: seq<TrackStreams>
    /** Whether `receive` has consumed the one-shot gate (`received_tx` is `None`). */
    var received: bool
    /** The calls made on collaborators by `stop`, in order. */
    var stopLog: seq<StopEvent>
    /** How many times `receive` was called. */
    ghost var receiveCalls: nat

    ghost predicate Valid()
      reads this
    {
      received <==> receiveCalls > 0
    }

    constructor (kind: CodecType)
      ensures Valid()
      ensures this.kind == kind && tracks == [] && !received && stopLog == [] && receiveCalls == 0
    {
      this.kind := kind;
      tracks := [];
      received := false;
      stopLog := [];
      receiveCalls := 0;
    }

    /** `track`: the track when there is exactly one. */
    function Track(): (r: Option<TrackRemote>)
      reads this
      ensures r.Some? <==> |tracks| == 1
      ensures r.Some? ==> r.value == tracks[0].track
    {
      if |tracks| != 1 then None else Some(tracks[0].track)
    }

    /** `tracks`: every track, in list order. */
    function Tracks(): (r: seq<TrackRemote>)
      reads this
      ensures |r| == |tracks|
      ensures forall k :: 0 <= k < |tracks| ==> r[k] == tracks[k].track
    {
      var ts := tracks;
      seq(|ts|, k requires 0 <= k < |ts| => ts[k].track)
    }

    /** `have_received`: whether `receive` was ever called. */
    function HaveReceived(): (r: bool)
      reads this
      requires Valid()
      ensures r <==> receiveCalls > 0
    {
      received
    }

    /**
     * `receive_for_rtx`: attaches `repairStream` to the first matching track.
     * The repair drain task it spawns is not modelled.
     */
    method ReceiveForRtx(ssrc: Ssrc, rsid: string, repairStream: TrackStream) returns (r: Result<()>)
      modifies this`tracks
      ensures var a := AttachRepair(old(tracks), ssrc, rsid, repairStream);
        && (a.Ok? ==> r == Ok(()) && tracks == a.value)
        && (a.Err? ==> r == Err(a.error) && tracks == old(tracks))
    {
      var l := |tracks|;
      var j := 0;
      while j < |tracks|
        invariant 0 <= j <= |tracks| && tracks == old(tracks)
        invariant forall k :: 0 <= k < j ==> !RepairTarget(l, ssrc, rsid, tracks[k])
      {
        if (ssrc != 0 && l == 1) || tracks[j].track.rid == rsid {
          ghost var a := AttachRepair(tracks, ssrc, rsid, repairStream);
          ghost var i :| 0 <= i < l && AttachedAt(tracks, a.value, i, repairStream)
            && RepairTarget(l, ssrc, rsid, tracks[i]) && forall k :: 0 <= k < i ==> !RepairTarget(l, ssrc, rsid, tracks[k]);
          assert i == j;
          tracks := tracks[j := tracks[j].(repairStream := repairStream)];
          return Ok(());
        }
        j := j + 1;
      }
      return Err(ErrRTPReceiverForRIDTrackStreamNotFound);
    }

    /**
     * `receive`: consumes the one-shot gate first, then adds a track per
     * encoding, binding its streams and its repair stream on the way.
     */
    method Receive(parameters: seq<DecodingParameters>, bind: Ssrc -> Result<Binding>) returns (r: Result<()>)
      requires Valid()
      modifies this`tracks, this`received, this`receiveCalls
      ensures Valid() && received && receiveCalls == old(receiveCalls) + 1
      ensures old(received) ==> r == Err(ErrRTPReceiverReceiveAlreadyCalled) && tracks == old(tracks)
      ensures !old(received) ==> (tracks, r) == ReceiveLoop(kind, old(tracks), parameters, bind)
    {
      receiveCalls := receiveCalls + 1;
      if received {
        return Err(ErrRTPReceiverReceiveAlreadyCalled);
      }
      received := true;
      var i := 0;
      while i < |parameters|
        invariant 0 <= i <= |parameters|
        invariant received && receiveCalls == old(receiveCalls) + 1
        invariant ReceiveLoop(kind, old(tracks), parameters, bind) == ReceiveLoop(kind, tracks, parameters[i..], bind)
      {
        var encoding := parameters[i];
        assert parameters[i..][0] == encoding && parameters[i..][1..] == parameters[i + 1..];
        var stream := EmptyStream;
        if encoding.ssrc != 0 {
          var bound := bind(encoding.ssrc);
          if bound.Err? {
            return Err(bound.error);
          }
          stream := BoundStream(encoding.ssrc, bound.value);
        }
        tracks := tracks + [TrackStreams(TrackRemote(kind, encoding.ssrc, encoding.rid), stream, EmptyStream)];
        var rtxSsrc := encoding.rtx.ssrc;
        if rtxSsrc != 0 {
          var bound := bind(rtxSsrc);
          if bound.Err? {
            return Err(bound.error);
          }
          var attached := ReceiveForRtx(rtxSsrc, "", BoundStream(rtxSsrc, bound.value));
          if attached.Err? {
            return Err(attached.error);
          }
        }
        i := i + 1;
      }
      r := Ok(());
    }

    /** `start`: builds the encodings and receives them; a failed receive is only logged. */
    method Start(incoming: TrackDetails, bind: Ssrc -> Result<Binding>)
      requires Valid()
      modifies this`tracks, this`received, this`receiveCalls
      ensures Valid() && received
      ensures old(received) ==> tracks == old(tracks)
      ensures !old(received) ==> tracks == ReceiveLoop(kind, old(tracks), StartEncodings(incoming), bind).0
    {
      var encodings := BuildEncodings(incoming);
      var result := Receive(encodings, bind);
      if result.Err? {
        return;
      }
    }

    /** Closes `s` if present, recording the call and keeping its error. */
    method CloseIfPresent(s: Option<ReadStream>, close: ReadStream -> Result<()>, errs: seq<Error>) returns (errs': seq<Error>)
      modifies this`stopLog
      ensures stopLog == old(stopLog) + CloseOf(s)
      ensures errs' == errs + OptionalCloseError(s, close)
    {
      errs' := errs;
      if s.Some? {
        stopLog := stopLog + [Close(s.value)];
        var closed := close(s.value);
        if closed.Err? {
          errs' := errs' + [closed.error];
        }
      }
    }

    /** Unbinds `info` from the interceptor chain if present, recording the call. */
    method UnbindIfPresent(info: Option<StreamInfo>)
      modifies this`stopLog
      ensures stopLog == old(stopLog) + UnbindOf(info)
    {
      if info.Some? {
        stopLog := stopLog + [Unbind(info.value)];
      }
    }

    /** The closes `stop` makes for one track, collecting their errors. */
    method CloseTrack(t: TrackStreams, close: ReadStream -> Result<()>, errs: seq<Error>) returns (errs': seq<Error>)
      modifies this`stopLog
      ensures stopLog == old(stopLog) + CloseEvents(ReaderSlots(t))
      ensures errs' == errs + SlotErrors(ReaderSlots(t), close)
    {
      var slots := ReaderSlots(t);
      errs' := errs;
      for j := 0 to |slots|
        invariant stopLog == old(stopLog) + CloseEvents(slots[..j])
        invariant errs' == errs + SlotErrors(slots[..j], close)
      {
        SlotsPrefix(slots, j);
        errs' := CloseIfPresent(slots[j], close, errs');
      }
      assert slots[..|slots|] == slots;
    }

    /** The unbinds `stop` makes for one track. */
    method UnbindTrack(t: TrackStreams)
      modifies this`stopLog
      ensures stopLog == old(stopLog) + UnbindEvents(InfoSlots(t))
    {
      var slots := InfoSlots(t);
      for j := 0 to |slots|
        invariant stopLog == old(stopLog) + UnbindEvents(slots[..j])
      {
        SlotsPrefix(slots, j);
        UnbindIfPresent(slots[j]);
      }
      assert slots[..|slots|] == slots;
    }

    /** The part of `stop` for one track: its closes, then its unbinds. */
    method StopTrack(t: TrackStreams, close: ReadStream -> Result<()>, errs: seq<Error>) returns (errs': seq<Error>)
      modifies this`stopLog
      ensures stopLog == old(stopLog) + CloseEvents(ReaderSlots(t)) + UnbindEvents(InfoSlots(t))
      ensures errs' == errs + SlotErrors(ReaderSlots(t), close)
    {
      errs' := CloseTrack(t, close, errs);
      UnbindTrack(t);
    }

    /** The loop of `stop` over the tracks. */
    method StopTracks(ts: seq<TrackStreams>, close: ReadStream -> Result<()>) returns (errs: seq<Error>)
      modifies this`stopLog
      ensures stopLog == old(stopLog) + StopEvents(ts)
      ensures errs == StopErrors(ts, close)
    {
      errs := [];
      for i := 0 to |ts|
        invariant stopLog == old(stopLog) + StopEvents(ts[..i])
        invariant errs == StopErrors(ts[..i], close)
      {
        SlotsPrefix(ts, i);
        errs := StopTrack(ts[i], close, errs);
      }
      assert ts[..|ts|] == ts;
    }

    /**
     * `stop`: if `receive` was called, closes every present read stream of
     * every track and unbinds every present descriptor, track by track,
     * collecting every close error.
     */
    method Stop(close: ReadStream -> Result<()>) returns (r: Result<()>)
      modifies this`stopLog
      ensures !received ==> stopLog == old(stopLog) && r == Ok(())
      ensures received ==> stopLog == old(stopLog) + StopEvents(tracks)
      ensures received ==> r == FlattenErrs(StopErrors(tracks, close))
    {
      var errs: seq<Error> := [];
      if received {
        errs := StopTracks(tracks, close);
      }
      r := FlattenErrs(errs);
    }

    /**
     * `read`, after the gate and stop races resolved as `gate` and `race`.
     * The gate opens only once `receive` has run; before that only stop ends the wait.
     */
    method Read(gate: Wake, race: Wake, interceptorRead: Interceptor -> Result<ReadResult>) returns (r: Result<ReadResult>)
      requires gate == Ready ==> received
      ensures r == ReadOutcome(tracks, gate, race, interceptorRead)
      ensures !received ==> r == Err(ErrClosedPipe)
    {
      if gate == Stopped {
        return Err(ErrClosedPipe);
      }
      if |tracks| == 0 {
        return Err(ErrExistingTrack);
      }
      var t := tracks[0];
      if t.stream.rtcpInterceptor.None? {
        return Err(ErrInterceptorNotBind);
      }
      if race == Stopped {
        return Err(ErrClosedPipe);
      }
      r := interceptorRead(t.stream.rtcpInterceptor.value);
    }

    /** `read_simulcast`, after the gate and stop races resolved as `gate` and `race`. */
    method ReadSimulcast(rid: string, gate: Wake, race: Wake, interceptorRead: Interceptor -> Result<ReadResult>)
      returns (r: Result<ReadResult>)
      requires gate == Ready ==> received
      ensures r == ReadSimulcastOutcome(tracks, rid, gate, race, interceptorRead)
      ensures !received ==> r == Err(ErrClosedPipe)
    {
      if gate == Stopped {
        return Err(ErrClosedPipe);
      }
      var j := 0;
      while j < |tracks|
        invariant 0 <= j <= |tracks|
        invariant forall k :: 0 <= k < j ==> tracks[k].track.rid != rid
      {
        var t := tracks[j];
        if t.track.rid == rid {
          ReadSimulcastIsReadAtMatch(tracks, rid, j, gate, race, interceptorRead);
          if t.stream.rtcpInterceptor.None? {
            return Err(ErrInterceptorNotBind);
          }
          if race == Stopped {
            return Err(ErrClosedPipe);
          }
          return interceptorRead(t.stream.rtcpInterceptor.value);
        }
        j := j + 1;
      }
      return Err(ErrRTPReceiverForRIDTrackStreamNotFound);
    }
  }
}

=== FILE: wrappers.dfy ===
/** Optional values, the counterpart of Rust's `Option`. */
module Wrappers {

  datatype Option<+T> = None | Some(value: T)
}
